=== FILE: README.md ===
# Qungeon rules in Dafny

Qungeon is a tile-based puzzle game. The player walks a grid and picks up quantum
gates from crates. Each gate is spent on a pillar whose state the player has to read.

A pillar the player may walk through is one whose last reading was certainly EMPTY.
A pillar still in superposition blocks the way. The control gates CNOT and CHAD are
dragged from one pillar onto a second pillar. That entangles the two, and the
grouping system tracks which pillars have to be read jointly. Once a second, every
entangled group cycles through its cached joint outcomes and tints its pillars by
their bit of the outcome shown.

This project models those rules as pure functions over immutable data, one module
per part of the program:

- `Basics`: `Option`, `Result`, and the exceptions the Python code can raise. It also
  holds the "first index satisfying p" search behind every `for … break` loop.
- `OrderedDict`: Python's insertion-ordered `dict`. Updating a key keeps its place,
  and deleting a key closes the gap.
- `PositionKey`: the `str(x) + "," + str(y)` keys that board objects are filed under,
  with a parser proving the encoding injective.
- `Kinds`: the gate catalogue, the control gates, `TileType`, `Pillar`, `SCALE_FACTOR`
  and `BLOCK_SIZE`.
- `Grouping`: `Group` and `GroupingSystem`. Python's object identity is modelled by
  an index into a store of every group ever created. Each pillar's `group` attribute
  is an `owner` map.
- `Hotbar`: the hotbar's `slots` dictionary and slot positions, with `add_item`,
  `remove_by_key` and `update_slots`.
- `GameObjects`: pillars and crates, `apply_effect`, both `function` methods, and
  `Player.update_position` and `distance`.
- `HotbarActions`: `Hotbar.remove_item`.
- `Qungeon`: `update_position`, `advance_level` (its counter),
  `GameHotbar.handle_mouse_up` and `handle_object_dragging`.
- `Correlation`: `correlation_update`, both as written and corrected (see Findings).

The quantum simulator is a parameter. A `Samples` value supplies three things:
- what the pillar acted on reads after the effect;
- what the reference pillar of a controlled effect reads;
- the sorted joint outcomes of the acting pillar's group.

Each reading is abstracted to `DefinitelyEmpty` (`states[0] == 1.0`),
`DefinitelyFull` (`states[1] == 1.0`) or `Mixed`. The effects are applied inside
the simulator, so the model does not say whether a given reading follows from an
effect. What it models is everything the game does around those readings: phase
markers, colours, grouping, logging, inventory and movement.

Which sprite rectangles contain the mouse pointer is also an input. `hits` is the
set of board keys whose sprites the pointer is over.

## Model

| member | source | states |
|---|---|---|
| Grouping.Find | scripts/grouping_system.py:15-20 | Returns a tracked group holding the object, and no earlier group in list order holds it; returns nothing exactly when no tracked group holds it |
| Grouping.FindAgreesWithOwner | scripts/grouping_system.py:15-20 | On a valid system the list search finds exactly the group the object's `group` attribute names, and nothing for an object never added |
| Grouping.ExactlyOneGroup | scripts/grouping_system.py:22-28 | In a valid system an object sits in at most one tracked group, the one it points back at |
| Grouping.Merge | scripts/grouping_system.py:22-28 | When the groups differ and both are tracked, `group1` gets `group2`'s members appended and keeps its cached states. `group2` leaves the list and every moved member points at `group1`. Otherwise nothing changes |
| Grouping.MergeKeepsOrder | scripts/grouping_system.py:24-25 | An effective merge cuts `group2` out of the tracked list at its first occurrence, so every other group keeps its place in the order |
| Grouping.MergeKeepsBackPointers | scripts/grouping_system.py:22-28 | After an effective merge every member of every tracked group points back at its group |
| Grouping.MergeKeepsCoverage | scripts/grouping_system.py:22-28 | An effective merge registers the same objects, and each sits in the tracked group it points at |
| Grouping.MergePreservesValid | scripts/grouping_system.py:22-28 | Merging keeps the partition invariant (groups distinct and disjoint, back-pointers consistent) and holds the same set of objects |
| Grouping.MergeIdempotent | scripts/grouping_system.py:22-28 | Repeating a merge of the same two groups changes nothing |
| Grouping.Add | scripts/grouping_system.py:30-39 | Given a group, appends the object to it and leaves the group list alone. Without one, creates a fresh group holding only the object, with no states, appended to the list |
| Grouping.Register | scripts/game_objects.py:114 | A new pillar's `group` is a new singleton group with no states, appended to the tracked list; every existing group, every other object's `group` and the counter are unchanged |
| Grouping.RegisterPreservesValid | scripts/grouping_system.py:30-39 | Registering an unseen object keeps the partition valid and adds exactly that object |
| Grouping.Join | scripts/grouping_system.py:41-44 | Merges the two objects' groups and returns the first object's group; nothing is unregistered and the counter is unchanged |
| Grouping.JoinUnites | scripts/grouping_system.py:41-44 | After `join(a, b)` the system is valid, `b` points at `a`'s old group, and that group holds every former member of both groups |
| Grouping.SetStates | scripts/game_objects.py:137-138 | Caching a histogram on a group changes only that group's states and keeps a valid system valid |
| OrderedDict.Put | scripts/user_interface.py:84 | Writing an existing key replaces its entry in place; a new key is appended; the key then reads back the value, and other entries are untouched |
| OrderedDict.Delete | scripts/user_interface.py:94 | Deleting a key removes one entry and keeps every other entry, and no entry appears that was not there. Entries before the deleted key keep their places, and later ones move down by one in order |
| OrderedDict.GetAfterPut | scripts/user_interface.py:84 | Writing one key leaves every other key's value as it was |
| OrderedDict.GetAfterDelete | scripts/user_interface.py:94 | Deleting one key leaves every other key present with its value |
| OrderedDict.PutBack | scripts/user_interface.py:84 | Writing a key's old value back restores the dictionary exactly, position included |
| PositionKey.KeyRoundTrip | Qungeon.py:147 | Splitting a cell's key at its comma and reading both numbers gives back the cell, negative coordinates included |
| PositionKey.KeyInjective | Qungeon.py:147 | Two cells share a key exactly when they are the same cell |
| Kinds.GateEffect | scripts/game_objects.py:10-17 | X applies Flip, H Superposition, Z Phase and RotY the rotation. CNOT, CHAD and unknown names have no effect |
| Kinds.ControlEffect | Qungeon.py:205-208 | A drop applies an effect exactly for the control gates: Flip for CNOT and Superposition for CHAD |
| Kinds.ControlGatesHaveNoDirectEffect | scripts/game_objects.py:15-28 | A control gate has no direct effect, and a gate with a direct effect is not a control gate |
| Hotbar.UpdateSlots | scripts/user_interface.py:122-125 | Keeps keys, order and every field but x. Slot i moves to 175 + 55 i, so a row resting at y 525 is laid out |
| Hotbar.AddItem | scripts/user_interface.py:73-86 | A held gate's count rises by the amount, in place, and no other slot changes. A new gate gets a slot appended after the others, at the next x in the row, with the given count |
| Hotbar.RemoveByKey | scripts/user_interface.py:88-98 | Raises KeyError exactly when the gate is not held. A count above one drops by one in place. Otherwise the slot is removed, and the others keep their order and every field except x, which becomes their new row position |
| Hotbar.ClosedRanks | scripts/user_interface.py:92-95 | Once a slot is removed and the row re-laid, the earlier slots stay where they were in order and the later ones move down one place; each keeps every field except x |
| Hotbar.UpdateSlotsKeepsCounts | scripts/user_interface.py:122-125 | Re-laying the row keeps every gate's count |
| Hotbar.RemoveByKeyKeepsOtherCounts | scripts/user_interface.py:88-98 | Spending one gate keeps every other gate held with the same count |
| Hotbar.AddItemKeepsLayout | scripts/user_interface.py:73-86 | A bar whose slots sit in their row places stays so after a pickup |
| Hotbar.RemoveByKeyKeepsLayout | scripts/user_interface.py:88-98 | A bar whose slots sit in their row places stays so after spending a gate |
| Hotbar.PickUpThenSpend | scripts/user_interface.py:73-98 | Picking up one gate and spending it gives back exactly the bar before, whether the gate was held or new |
| Hotbar.RemoveByKeyKeepsSettled | scripts/user_interface.py:88-98 | Spending a gate keeps every other resting slot in place and never starts a drag |
| GameObjects.PlacePlayer | scripts/game_objects.py:188-192 | The player's cell becomes (x, y) and its sprite origin is the cell's corner, a multiple of BLOCK_SIZE 64 |
| GameObjects.NextPhase | scripts/game_objects.py:120-125 | A certainly EMPTY pillar loses its marker. Superposition sets the marker exactly when the pillar is certainly FULL. Phase toggles it on a pillar not certainly EMPTY. Other effects keep it |
| GameObjects.PhaseTwiceRestoresMarker | scripts/game_objects.py:122-123 | Two Phase gates in a row restore the marker of a pillar not certainly EMPTY |
| GameObjects.RefreshKeepsMarker | scripts/game_objects.py:120-125 | A refresh after any effect keeps the marker that effect chose |
| GameObjects.ColourFor | scripts/game_objects.py:143-146 | A certainly EMPTY pillar is white at opacity 150. Any other is opaque, with green 220 exactly when marked, and a certainly FULL one is pure blue |
| GameObjects.MarkerVisibleUnlessEmpty | scripts/game_objects.py:143-146 | The phase marker changes the colour exactly when the pillar is not certainly EMPTY |
| GameObjects.ApplyEffect | scripts/game_objects.py:116-148 | Fails exactly for a controlled effect whose reference cell holds no pillar. The error is KeyError exactly when the cell is empty, and the simulator's error when it holds a crate. Otherwise keeps the board's shape and registration and changes nothing outside the board, grouping and log. It logs every effect but a refresh, under the key built from the pillar's own position |
| GameObjects.ApplyEffectUpdatesPillar | scripts/game_objects.py:116-148 | The pillar acted on carries the marker chosen from its previous reading, the fresh reading and the colour of both. A distinct reference pillar of a controlled effect is refreshed with its own new reading. No other object changes |
| GameObjects.ControlledUpdatesReference | scripts/game_objects.py:130-133 | After a controlled effect the reference pillar is still on the board, refreshed with the reference reading and with no effect of its own |
| GameObjects.ApplyEffectGrouping | scripts/game_objects.py:127-138 | A refresh leaves the grouping alone. Other effects cache the joint outcomes on the pillar's group, and a controlled one first unites it with the reference pillar's group. The system stays valid over the same objects |
| GameObjects.Near | scripts/game_objects.py:194-196 | The cell is within distance 1 of the player on both axes, that is, one of the nine cells around and including the player's |
| GameObjects.Passable | scripts/game_objects.py:150-153 | A pillar lets the player through exactly when it is drawn as the faded white pillar, which its phase marker does not affect |
| GameObjects.Interact | scripts/game_objects.py:87-153 | A crate lets the player in, leaves the board (the other objects keep their order, as `del` on a dict does) and adds one of its gate to the hotbar. A pillar lets the player in exactly when certainly EMPTY, changing nothing |
| GameObjects.InteractKeepsRegistered | scripts/game_objects.py:87-92 | Stepping onto an object keeps every pillar on the board registered |
| GameObjects.LootThenSpend | scripts/game_objects.py:87-92 | Spending the gate a crate gave restores the hotbar from before the pickup |
| HotbarActions.FirstTarget | scripts/user_interface.py:106-108 | The first pillar in board order that is under the pointer and within one cell of the player, or none exactly when there is no such pillar |
| HotbarActions.GateDescriptor | scripts/user_interface.py:20 | A slot's effect is the gate's catalogue effect, or none; never a controlled effect |
| HotbarActions.RemoveItem | scripts/user_interface.py:100-116 | No held gate or no target changes nothing. A control gate only marks the target as dragged with that control. Any other gate is applied to the target, logged under the target's position key if it has an effect, and one of it is spent |
| HotbarActions.RemoveItemUpdatesTarget | scripts/user_interface.py:106-116 | The targeted pillar takes the gate's effect and a fresh reading, and no other object changes |
| HotbarActions.RemoveItemGrouping | scripts/user_interface.py:106-116 | A gate with an effect caches the joint outcomes on the target's group and changes no group's membership or the tracked list; a gate without an effect leaves the grouping system as it was |
| HotbarActions.RemoveItemSpendsAtMostOne | scripts/user_interface.py:100-116 | Using a gate lowers its own count by at most one and keeps every other gate's count |
| Qungeon.Step | Qungeon.py:133-140 | W, S, A and D move one cell up, down, left and right, with y growing downwards |
| Qungeon.StepIsAdjacent | Qungeon.py:133-140 | A step leaves the cell for an edge neighbour within the player's reach, and the opposite key steps back |
| Qungeon.AdvanceLevel | Qungeon.py:160-162 | The level counter goes up by one and nothing else changes |
| Qungeon.UpdatePosition | Qungeon.py:128-158 | An END tile moves the player there and ends the level. Otherwise an object there decides entry through its `function`, and entering leaves the game exactly as that `function` left it apart from the player. Bare floor admits any tile but a WALL, and a step onto it changes only the player. A player who does not move leaves the game unchanged |
| Qungeon.UpdatePositionKeepsRegistered | Qungeon.py:128-158 | Moving never unregisters a pillar |
| Qungeon.NeverIntoWall | Qungeon.py:156-158 | With no object at the destination, a WALL or missing tile leaves the game unchanged |
| Qungeon.StepThereAndBack | Qungeon.py:128-158 | On open floor, a step and the opposite step restore the game exactly |
| Qungeon.HandleMouseUp | Qungeon.py:28-37 | Nothing happens unless a slot is dragged. The first dragged slot is released and its gate is used: the board, grouping and log are exactly those of `remove_item` on the bar with that slot released. If the slot survives it rests at its own row position and is no longer dragged |
| Qungeon.MouseUpSettles | Qungeon.py:28-37 | If every resting slot was in place, every resting slot still is after a release. When only one slot was dragged, the whole row is laid out and nothing stays dragged |
| Qungeon.HandleObjectDragging | Qungeon.py:191-212 | With no dragged pillar it changes nothing. Otherwise the first dragged pillar is released, and a miss is reported exactly when no other pillar is under the pointer. A drop returns the pillar's control, and failure is possible only on a board not keyed by cell. On a miss, or a drop by a pillar without a control gate, only that pillar's `dragging` flag changes |
| Qungeon.DropEntangles | Qungeon.py:200-210 | Dropping a pillar carrying CNOT or CHAD onto another pillar succeeds and logs the controlled effect under the dragged pillar's position. The target pillar is refreshed with its new reading, and the two pillars end up in one group of a still valid system |
| Qungeon.DropUpdatesTarget | Qungeon.py:205-208 | After a control drop the target pillar holds its old state refreshed with the reference reading |
| Correlation.Opacity | Qungeon.py:221 | An EMPTY bit paints opacity 127 and a FULL bit 254 |
| Correlation.Repaint | Qungeon.py:221 | Repainting a pillar keeps its colour channels and sets the opacity, touching no other object; a pillar with no colour raises TypeError |
| Correlation.PaintGroup | Qungeon.py:220-221 | Member k of a group is painted with bit k of the shown outcome, and nothing outside the group changes. An outcome shorter than the group raises IndexError; an uncoloured member raises TypeError. A failure is IndexError when every remaining member is coloured, and TypeError when the outcome covers the group |
| Correlation.Shown | Qungeon.py:218-219 | A group shows an outcome only when more than one is cached, and then the one at index `count % len(states)` |
| Correlation.PaintGroups | Qungeon.py:217-221 | Succeeds exactly when every visited group is ready; keeps the board's shape and leaves every pillar outside the displaying groups untouched |
| Correlation.CorrelationUpdateAsWritten | Qungeon.py:214-223 | Succeeds exactly when every tracked group is ready, and raises whenever some tracked group has no cached states |
| Correlation.UncachedGroupRaises | Qungeon.py:218 | A board with one pillar that never had an effect makes the as-written update raise TypeError, while the corrected one only advances the counter |
| Correlation.CorrelationUpdate | Qungeon.py:214-223 | Succeeds exactly when every group with cached states is ready. The counter goes up by one, only pillar opacities change, and the board stays registered |
| Correlation.AsWrittenAgreesWhenCached | Qungeon.py:214-223 | When every tracked group has cached states, the correction agrees with the code as written |
| Correlation.PaintGroupsAlpha | Qungeon.py:217-221 | Every member of a displaying group is painted with its own bit of that group's shown outcome, once; the groups are disjoint |
| Correlation.CorrelationOpacity | Qungeon.py:217-223 | After the update a pillar of a displaying group has the opacity of its own bit of the shown outcome, 127 or 254; every other pillar is unchanged |

## Left out

- The quantum simulator (`alpha`, `quantum_grid`, `quantum_if`, `get_probabilities`, `get_correlated_histogram`) is not part of this model. Its answers are the `Samples` parameter, and each reading is abstracted to certainly EMPTY, certainly FULL or mixed.
- The initial sampled states taken in `QuantumObject.__init__` are modelled only as the pillar's starting reading, and the RotY angle is not modelled: both are simulator matters.
- Floating-point colour channels `int(255 * p)` for a mixed reading are modelled as an unspecified `Scaled` channel.
- Rendering is left out: images, `change_color` blending, `hop_animation` frames, `display_game`, `entanglement_visuals` and `hover`. Only the colour tuple and opacity are kept.
- Level loading (`load_level`, `clean_up`) after `advance_level` increments the counter is left out, and so is the game's end via `sys.exit`. Both are file and process I/O.
- The event loop `handle_events` and the timer that calls `correlation_update` each second are I/O. With them go `handle_keydown`, `handle_slot_mouse_down`, `update_mouse_drag` and `remove_by_key(obj_effect)`, the last of which spends a control gate after a drop.
- Qungeon.UpdatePosition: a key other than W, A, S or D is not modelled. The event loop only passes those four, and any other key leaves the player in place.
- `rect.collidepoint(event.pos)` is the `hits` input. The drag offsets and `origin_x`/`origin_y` restoration are left out, because only slot and sprite positions at rest are modelled.
- Qungeon.HandleObjectDragging: only pillars are ever dragged in the model. A crate's `dragging` flag is never set by the modelled code, so the outer loop's check on crates is left out.
- Grouping.Merge: its own contract states the remaining tracked groups by membership and count. The order `list.remove` keeps is stated separately, over all inputs, by Grouping.MergeKeepsOrder, which keeps the proofs built on Merge small.
- GameObjects.ApplyEffect: on `KeyError` or a simulator failure the model returns the error without the partial update. It does not model the phase marker already written by then.
- Correlation.PaintGroups: when an `IndexError` or `TypeError` aborts the loop, the model does not keep the pillars already repainted before it.
- `pygame.sprite.Sprite.kill` for a spent slot or a looted crate is modelled by removing the entry from its dictionary. Sprite groups are not modelled.
- `ItemSlot` surfaces, text and `change_item_text` are rendering only.
- Integer widths: Python integers are unbounded, and so are the model's.

## Findings

| source | as written | input that shows it | evidently intended | confidence | as-written member | corrected member |
|---|---|---|---|---|---|---|
| Qungeon.py:218 | `len(group.states)` for every tracked group, though `Group.states` stays `None` until an effect is applied to a member | a level listing a pillar under `quantum_objects` with no entry for it under `effects`: its singleton group has `states = None` and the first timer tick raises `TypeError` | skip groups with no cached states, which have nothing to display | not executed | Correlation.CorrelationUpdateAsWritten (shown by Correlation.UncachedGroupRaises) | Correlation.CorrelationUpdate |

=== FILE: basics.dfy ===
/** Failure-compatible wrappers shared by every module of the Qungeon model. */
module Basics {

  /** An optional value, standing in for Python's `None`. */
  datatype Option<+T> = None | Some(value: T)

  /** The exceptions the modelled Python code can raise. */
  datatype Error =
    | KeyError           // a missing dictionary key (`slots[key]`, `objects[key]`)
    | NotQuantumObject   // a controlled effect aimed at an object the simulator does not know
    | TypeError          // an operation on `None` (`len(None)`, unpacking a missing colour)
    | IndexError         // a tuple index past its end

  /** Either a value or the exception that aborted the operation. */
  datatype Result<+T> = Ok(value: T) | Err(error: Error) {

    predicate IsFailure() {
      Err?
    }

    function PropagateFailure<U>(): Result<U>
      requires Err?
    {
      Err(error)
    }

    function Extract(): T
      requires Ok?
    {
      value
    }
  }

  /** The least index `j` with `i <= j < n` and `p(j)`: where a loop over the
      indices from `i` that stops at its first match stops. */
  function FirstFrom(n: nat, p: nat -> bool, i: nat): (r: Option<nat>)
    requires i <= n
    ensures r.Some? ==> i <= r.value < n && p(r.value)
    ensures r.Some? ==> forall j :: i <= j < r.value ==> !p(j)
    ensures r.None? <==> forall j :: i <= j < n ==> !p(j)
    decreases n - i
  {
    if i == n then None
    else if p(i) then Some(i)
    else FirstFrom(n, p, i + 1)
  }

  /** The least index below `n` satisfying `p`, if any. */
  function First(n: nat, p: nat -> bool): (r: Option<nat>)
    ensures r.Some? ==> r.value < n && p(r.value) && forall j :: 0 <= j < r.value ==> !p(j)
    ensures r.None? <==> forall j :: 0 <= j < n ==> !p(j)
  {
    FirstFrom(n, p, 0)
  }
}

=== FILE: correlation.dfy ===
/** `Game.correlation_update` in Qungeon.py: once a second, every group with more than
    one cached joint outcome shows one of them, cycling through them with the grouping
    system's counter; each member pillar is painted half or fully opaque by its own
    bit of that outcome. */
module Correlation {
  import opened Basics
  import opened OrderedDict
  import opened Kinds
  import opened Grouping
  import opened GameObjects

  /** `(state[key] + 1) * 127`: the opacity a pillar is painted with for its bit. */
  function Opacity(p: Pillar): (a: nat)
    ensures p == Empty ==> a == 127
    ensures p == Full ==> a == 254
  {
    (p.Value() + 1) * 127
  }

  /** Whether board entry `o` is the pillar with identity `id`. */
  predicate HasId(o: GameObject, id: ObjectId) {
    o.Quantum? && o.q.id == id
  }

  /** Whether every pillar with identity `id` on the board has a colour. */
  predicate Coloured(objects: Dict<string, GameObject>, id: ObjectId) {
    forall j :: 0 <= j < |objects| && HasId(objects[j].1, id) ==> objects[j].1.q.colour.Some?
  }

  /** A pillar whose colour has its opacity replaced by `alpha`. */
  function WithAlpha(o: GameObject, alpha: nat): GameObject
    requires o.Quantum? && o.q.colour.Some?
  {
    Quantum(o.q.(colour := Some(o.q.colour.value.(alpha := alpha))))
  }

  /** `object.change_color(pillar_image, object.color, alpha)` for the pillar with
      identity `id`: its colour keeps its channels and takes opacity `alpha`. A pillar
      whose colour was never set makes the unpacking of `None` raise `TypeError`. */
  function Repaint(objects: Dict<string, GameObject>, id: ObjectId, alpha: nat): (r: Result<Dict<string, GameObject>>)
    ensures r.Err? <==> !Coloured(objects, id)
    ensures r.Err? ==> r.error == TypeError
    ensures r.Ok? ==> SameShape(objects, r.value)
    ensures r.Ok? ==> forall j :: 0 <= j < |objects| && !HasId(objects[j].1, id) ==> r.value[j] == objects[j]
    ensures r.Ok? ==> forall j :: 0 <= j < |objects| && HasId(objects[j].1, id) ==> r.value[j].1 == WithAlpha(objects[j].1, alpha)
    ensures r.Ok? ==> forall other :: Coloured(objects, other) <==> Coloured(r.value, other)
  {
    if !Coloured(objects, id) then Err(TypeError)
    else
      Ok(seq(|objects|, j requires 0 <= j < |objects| =>
        if HasId(objects[j].1, id) then (objects[j].0, WithAlpha(objects[j].1, alpha)) else objects[j]))
  }

  /** The inner loop of `correlation_update` from member `k` on: member `k` is painted
      with bit `k` of the outcome `state`. An outcome shorter than the member list
      raises `IndexError` when the loop reaches its end. */
  function PaintGroup(objects: Dict<string, GameObject>, members: seq<ObjectId>, state: Outcome, k: nat): (r: Result<Dict<string, GameObject>>)
    requires k <= |members|
    ensures r.Ok? <==> (k == |members| || |members| <= |state|) && forall m :: k <= m < |members| ==> Coloured(objects, members[m])
    ensures r.Err? ==> r.error == IndexError || r.error == TypeError
    ensures r.Err? && (forall m :: k <= m < |members| ==> Coloured(objects, members[m])) ==> r.error == IndexError
    ensures r.Err? && |members| <= |state| ==> r.error == TypeError
    ensures r.Ok? ==> SameShape(objects, r.value)
    ensures r.Ok? ==> forall other :: Coloured(objects, other) <==> Coloured(r.value, other)
    ensures r.Ok? ==> forall j :: 0 <= j < |objects| && !(objects[j].1.Quantum? && objects[j].1.q.id in members[k..]) ==> r.value[j] == objects[j]
    ensures r.Ok? ==> forall j, m :: 0 <= j < |objects| && k <= m < |members| && HasId(objects[j].1, members[m]) && members[m] !in members[m + 1..] ==>
      r.value[j].1 == WithAlpha(objects[j].1, Opacity(state[m]))
    decreases |members| - k
  {
    if k == |members| then Ok(objects)
    else if k >= |state| then Err(IndexError)
    else
      match Repaint(objects, members[k], Opacity(state[k]))
      case Err(e) => Err(e)
      case Ok(painted) =>
        var r := PaintGroup(painted, members, state, k + 1);
        if r.Ok? then
          SameShapeTrans(objects, painted, r.value);
          assert members[k..] == [members[k]] + members[k + 1..];
          Ok(r.value)
        else
          r
  }

  /** The outcome group `g` displays at counter value `count`: the entry at index
      `count % len(states)` when more than one outcome is cached, and none otherwise. */
  function Shown(group: Group, count: nat): (r: Option<Outcome>)
    ensures r.Some? <==> group.states.Some? && |group.states.value| > 1
    ensures r.Some? ==> r.value in group.states.value
    ensures r.Some? ==> r.value == group.states.value[count % |group.states.value|]
  {
    match group.states
    case None => None
    case Some(states) => if |states| > 1 then Some(states[count % |states|]) else None
  }

  /** Whether the loop can handle group `g` on this board: its outcomes are cached, and
      if one is displayed it has a bit for every member and every member on the board
      has a colour. */
  predicate Ready(objects: Dict<string, GameObject>, gs: GroupingSystem, g: GroupId)
    requires g < |gs.store|
  {
    var group := gs.store[g];
    && group.states.Some?
    && (Shown(group, gs.count).Some? ==>
          && |group.objects| <= |Shown(group, gs.count).value|
          && forall m :: 0 <= m < |group.objects| ==> Coloured(objects, group.objects[m]))
  }

  /** Whether object `id` is a member of one of the groups `ids[i..]` that display an
      outcome. */
  predicate Displayed(gs: GroupingSystem, ids: seq<GroupId>, i: nat, id: ObjectId)
    requires forall t :: 0 <= t < |ids| ==> ids[t] < |gs.store|
  {
    exists t :: i <= t < |ids| && Shown(gs.store[ids[t]], gs.count).Some? && id in gs.store[ids[t]].objects
  }

  /** The outer loop of `correlation_update` over the groups `ids[i..]`, in order,
      with the counter value before the call. A group with no cached outcomes makes
      `len(None)` raise `TypeError`. */
  function PaintGroups(objects: Dict<string, GameObject>, gs: GroupingSystem, ids: seq<GroupId>, i: nat): (r: Result<Dict<string, GameObject>>)
    requires forall t :: 0 <= t < |ids| ==> ids[t] < |gs.store|
    requires i <= |ids|
    ensures r.Ok? <==> forall t :: i <= t < |ids| ==> Ready(objects, gs, ids[t])
    ensures r.Ok? ==> SameShape(objects, r.value)
    ensures r.Ok? ==> forall other :: Coloured(objects, other) <==> Coloured(r.value, other)
    ensures r.Ok? ==> forall j :: 0 <= j < |objects| && !(objects[j].1.Quantum? && Displayed(gs, ids, i, objects[j].1.q.id)) ==>
      r.value[j] == objects[j]
    decreases |ids| - i
  {
    if i == |ids| then Ok(objects)
    else
      var group := gs.store[ids[i]];
      if group.states.None? then Err(TypeError)
      else
        var next := match Shown(group, gs.count)
          case None => Ok(objects)
          case Some(state) => PaintGroup(objects, group.objects, state, 0);
        match next
        case Err(e) => Err(e)
        case Ok(painted) =>
          var r := PaintGroups(painted, gs, ids, i + 1);
          if r.Ok? then
            SameShapeTrans(objects, painted, r.value);
            assert forall t :: i + 1 <= t < |ids| ==> (Ready(objects, gs, ids[t]) <==> Ready(painted, gs, ids[t]));
            Ok(r.value)
          else
            assert forall t :: i + 1 <= t < |ids| ==> (Ready(objects, gs, ids[t]) <==> Ready(painted, gs, ids[t]));
            r
  }

  /** The groups of `ids` whose outcomes are cached, in their order. */
  function Cached(store: seq<Group>, ids: seq<GroupId>): (r: seq<GroupId>)
    requires forall t :: 0 <= t < |ids| ==> ids[t] < |store|
    ensures forall t :: 0 <= t < |r| ==> r[t] < |store|
    ensures forall g :: g in r <==> g in ids && store[g].states.Some?
    ensures NoDuplicates(ids) ==> NoDuplicates(r)
    ensures (forall t :: 0 <= t < |ids| ==> store[ids[t]].states.Some?) ==> r == ids
  {
    if ids == [] then []
    else
      var rest := Cached(store, ids[1..]);
      assert forall g :: g in ids <==> g == ids[0] || g in ids[1..];
      if store[ids[0]].states.Some? then [ids[0]] + rest else rest
  }

  /** `correlation_update()` as written: every tracked group is visited, so a group
      whose outcomes were never cached raises `TypeError` at `len(None)`. */
  function CorrelationUpdateAsWritten(g: Game): (r: Result<Game>)
    requires WellFormed(g.grouping)
    ensures r.Ok? <==> forall t :: 0 <= t < |g.grouping.groups| ==> Ready(g.objects, g.grouping, g.grouping.groups[t])
    ensures (exists t :: 0 <= t < |g.grouping.groups| && g.grouping.store[g.grouping.groups[t]].states.None?) ==> r.Err?
  {
    var objects :- PaintGroups(g.objects, g.grouping, g.grouping.groups, 0);
    Ok(g.(objects := objects, grouping := g.grouping.(count := g.grouping.count + 1)))
  }

  /** Every cached group is ready exactly when every tracked group with cached
      outcomes is. */
  lemma CachedReady(objects: Dict<string, GameObject>, gs: GroupingSystem)
    requires WellFormed(gs)
    ensures var cached := Cached(gs.store, gs.groups);
      (forall t :: 0 <= t < |cached| ==> Ready(objects, gs, cached[t]))
      <==> (forall t :: 0 <= t < |gs.groups| && gs.store[gs.groups[t]].states.Some? ==> Ready(objects, gs, gs.groups[t]))
  {
    CachedAll(gs.store, gs.groups, (g: GroupId) => g < |gs.store| && Ready(objects, gs, g));
  }

  /** A property holds for every cached group exactly when it holds for every group
      of `ids` whose outcomes are cached. */
  lemma CachedAll(store: seq<Group>, ids: seq<GroupId>, P: GroupId -> bool)
    requires forall t :: 0 <= t < |ids| ==> ids[t] < |store|
    ensures var cached := Cached(store, ids);
      (forall u :: 0 <= u < |cached| ==> P(cached[u]))
      <==> (forall t :: 0 <= t < |ids| && store[ids[t]].states.Some? ==> P(ids[t]))
  {
    var cached := Cached(store, ids);
    if forall u :: 0 <= u < |cached| ==> P(cached[u]) {
      forall t | 0 <= t < |ids| && store[ids[t]].states.Some?
        ensures P(ids[t])
      {
        assert ids[t] in cached;
        var u :| 0 <= u < |cached| && cached[u] == ids[t];
      }
    }
    if forall t :: 0 <= t < |ids| && store[ids[t]].states.Some? ==> P(ids[t]) {
      forall u | 0 <= u < |cached|
        ensures P(cached[u])
      {
        assert cached[u] in cached;
        assert cached[u] in ids && store[cached[u]].states.Some?;
        var t :| 0 <= t < |ids| && ids[t] == cached[u];
      }
    }
  }

  /** `correlation_update()` skipping the groups with no cached outcomes, as the
      guard `len(group.states) > 1` evidently means to: such a group has nothing to
      show. The counter moves on by one and only the pillars' opacities change. */
  function CorrelationUpdate(g: Game): (r: Result<Game>)
    requires WellFormed(g.grouping)
    ensures r.Ok? <==> forall t :: 0 <= t < |g.grouping.groups| && g.grouping.store[g.grouping.groups[t]].states.Some? ==>
      Ready(g.objects, g.grouping, g.grouping.groups[t])
    ensures r.Ok? ==> r.value == g.(objects := r.value.objects, grouping := r.value.grouping)
    ensures r.Ok? ==> r.value.grouping == g.grouping.(count := g.grouping.count + 1)
    ensures r.Ok? ==> SameShape(g.objects, r.value.objects)
    ensures r.Ok? && Registered(g) ==> Registered(r.value)
  {
    var cached := Cached(g.grouping.store, g.grouping.groups);
    CachedReady(g.objects, g.grouping);
    var objects :- PaintGroups(g.objects, g.grouping, cached, 0);
    assert Registered(g) ==> Registered(g.(objects := objects)) by {
      if Registered(g) {
        ShapeKeepsRegistered(g, objects, g.grouping);
      }
    }
    Ok(g.(objects := objects, grouping := g.grouping.(count := g.grouping.count + 1)))
  }

  /** When every tracked group has cached outcomes the correction changes nothing. */
  lemma AsWrittenAgreesWhenCached(g: Game)
    requires WellFormed(g.grouping)
    requires forall t :: 0 <= t < |g.grouping.groups| ==> g.grouping.store[g.grouping.groups[t]].states.Some?
    ensures CorrelationUpdateAsWritten(g) == CorrelationUpdate(g)
  {
    assert Cached(g.grouping.store, g.grouping.groups) == g.grouping.groups;
  }

  /** A board whose one pillar was placed by the level and never had an effect
      applied: its singleton group has no cached outcomes. The as-written update
      raises `TypeError` on it, while the corrected one only moves the counter on. */
  lemma UncachedGroupRaises(q: QuantumObject, key: string, g: Game)
    requires g.grouping == Register(Initial, q.id) && g.objects == [(key, Quantum(q))]
    ensures CorrelationUpdateAsWritten(g) == Err(TypeError)
    ensures CorrelationUpdate(g) == Ok(g.(grouping := g.grouping.(count := 1)))
  {
    var gs := g.grouping;
    assert gs.groups == [0] && gs.store == [Group([q.id], None)];
    assert Cached(gs.store, gs.groups) == [];
  }

  /** Every member of a displayed group among `ids[t..]` is painted with its own bit of
      the group's displayed outcome, and with nothing else: the groups of a valid
      grouping system are disjoint. */
  lemma {:induction false} PaintGroupsAlpha(objects: Dict<string, GameObject>, gs: GroupingSystem, ids: seq<GroupId>, i: nat, t: nat, m: nat, j: nat)
    requires Valid(gs) && NoDuplicates(ids)
    requires forall u :: 0 <= u < |ids| ==> ids[u] < |gs.store| && ids[u] in gs.groups
    requires i <= t < |ids| && PaintGroups(objects, gs, ids, i).Ok?
    requires Shown(gs.store[ids[t]], gs.count).Some?
    requires m < |gs.store[ids[t]].objects| && j < |objects| && HasId(objects[j].1, gs.store[ids[t]].objects[m])
    ensures m < |Shown(gs.store[ids[t]], gs.count).value| && objects[j].1.q.colour.Some?
    ensures PaintGroups(objects, gs, ids, i).value[j].1
         == WithAlpha(objects[j].1, Opacity(Shown(gs.store[ids[t]], gs.count).value[m]))
    decreases t - i
  {
    assert Ready(objects, gs, ids[t]);
    var id := objects[j].1.q.id;
    var group := gs.store[ids[i]];
    var next := match Shown(group, gs.count)
      case None => Ok(objects)
      case Some(state) => PaintGroup(objects, group.objects, state, 0);
    var painted := next.value;
    assert PaintGroups(objects, gs, ids, i) == PaintGroups(painted, gs, ids, i + 1);
    if i == t {
      assert NoDuplicates(group.objects);
      assert group.objects[m] !in group.objects[m + 1..];
      assert !Displayed(gs, ids, i + 1, id) by {
        forall u | i + 1 <= u < |ids| ensures id !in gs.store[ids[u]].objects {
          assert ids[u] != ids[i];
          if id in gs.store[ids[u]].objects {
            ExactlyOneGroup(gs, id, ids[u], ids[i]);
          }
        }
      }
    } else {
      assert id !in group.objects by {
        assert ids[t] != ids[i];
        if id in group.objects {
          ExactlyOneGroup(gs, id, ids[t], ids[i]);
        }
      }
      assert painted[j] == objects[j];
      PaintGroupsAlpha(painted, gs, ids, i + 1, t, m, j);
    }
  }

  /** What `correlation_update` shows: a pillar whose group displays an outcome is
      painted with the bit of that outcome at its own place in the group, that is
      opacity 127 for EMPTY and 254 for FULL; every other object is left as it was. */
  lemma CorrelationOpacity(g: Game, j: nat, k: nat)
    requires Valid(g.grouping) && CorrelationUpdate(g).Ok?
    requires j < |g.objects| && g.objects[j].1.Quantum? && g.objects[j].1.q.id in g.grouping.owner
    requires var members := g.grouping.store[g.grouping.owner[g.objects[j].1.q.id]].objects;
      k < |members| && members[k] == g.objects[j].1.q.id
    ensures var (gs, o) := (g.grouping, g.objects[j].1);
      var shown := Shown(gs.store[gs.owner[o.q.id]], gs.count);
      var r := CorrelationUpdate(g).value.objects[j].1;
      && (shown.Some? ==> k < |shown.value| && o.q.colour.Some? && r == WithAlpha(o, Opacity(shown.value[k])))
      && (shown.None? ==> r == o)
  {
    var gs := g.grouping;
    var id := g.objects[j].1.q.id;
    var home := gs.owner[id];
    var cached := Cached(gs.store, gs.groups);
    assert forall u :: 0 <= u < |cached| ==> cached[u] in gs.groups;
    if Shown(gs.store[home], gs.count).Some? {
      assert home in cached;
      var t :| 0 <= t < |cached| && cached[t] == home;
      PaintGroupsAlpha(g.objects, gs, cached, 0, t, k, j);
    } else {
      assert !Displayed(gs, cached, 0, id) by {
        forall u | 0 <= u < |cached| && id in gs.store[cached[u]].objects
          ensures Shown(gs.store[cached[u]], gs.count).None?
        {
          ExactlyOneGroup(gs, id, cached[u], home);
        }
      }
    }
  }
}

=== FILE: game_objects.dfy ===
/** scripts/game_objects.py: the objects on the board, what happens when a gate is
    applied to a pillar, and what happens when the player steps onto an object.

    The quantum simulator is not modelled. What the game reads back from it after
    an effect (a sampled histogram per pillar, a joint histogram per group) is an
    input, `Samples`, and a sampled histogram is reduced to the three cases the code
    tells apart: certainly EMPTY, certainly FULL, or anything in between. */
module GameObjects {
  import opened Basics
  import opened OrderedDict
  import opened PositionKey
  import opened Kinds
  import opened Grouping
  import opened Hotbar

  /** What the game concludes from a pillar's sampled histogram `states`:
      `states[0] == 1.0`, `states[1] == 1.0`, or neither. */
  datatype Reading = DefinitelyEmpty | DefinitelyFull | Mixed

  /** A colour channel: an exact value, or `int(255 * p)` for a probability strictly
      between 0 and 1, whose floating-point value is not modelled. */
  datatype Channel = Exact(level: nat) | Scaled

  /** The tint and opacity a pillar is drawn with. */
  datatype Colour = Colour(red: Channel, green: nat, blue: Channel, alpha: nat)

  /** A `QuantumObject` (a pillar): its simulator identity, its cell, its last
      reading, its phase marker `phase_Z`, its colour, and the drag state used while a
      control gate waits for its second object. */
  datatype QuantumObject = QuantumObject(
    id: ObjectId,
    position: Position,
    reading: Reading,
    phase: bool,
    colour: Option<Colour>,
    dragging: bool,
    control: Option<string>)

  /** The two kinds of object a level places: a crate holding a gate, or a pillar. */
  datatype GameObject = Lootable(item: string, at: Position) | Quantum(q: QuantumObject) {
    function Cell(): Position {
      if Lootable? then at else q.position
    }
  }

  /** The effect argument of `apply_effect`: nothing (a refresh), a plain effect, or
      the list `[effect, (x, y)]` asking for the effect on the object at `(x, y)`
      controlled by this one. */
  datatype Descriptor = NoEffect | Plain(effect: Effect) | Controlled(effect: Effect, reference: Position)

  /** An entry `[effect, "x,y"]` of `game.effect_history`: the effect and the key
      built from the acting pillar's own position. */
  datatype HistoryEntry = HistoryEntry(effect: Descriptor, cell: string)

  /** The `Player`: its cell and the pixel origin of its sprite. */
  datatype Player = Player(position: Position, rect: (int, int))

  /** The parts of `Game` these rules read and write. */
  datatype Game = Game(
    tiles: map<Position, TileType>,
    objects: Dict<string, GameObject>,
    grouping: GroupingSystem,
    history: seq<HistoryEntry>,
    hotbar: Hotbar,
    player: Player,
    level: int)

  /** What the simulator reports during one `apply_effect`: the reading of the
      pillar acted on, the reading of the reference pillar of a controlled effect,
      and the outcomes of the acting pillar's group in sorted order. */
  datatype Samples = Samples(target: Reading, reference: Reading, joint: seq<Outcome>)

  /** `Player.update_position(x, y)`. */
  function PlacePlayer(x: int, y: int): (p: Player)
    ensures p.position == (x, y)
    ensures p.rect.0 % BlockSize == 0 && p.rect.0 / BlockSize == x
    ensures p.rect.1 % BlockSize == 0 && p.rect.1 / BlockSize == y
  {
    Player((x, y), (x * BlockSize, y * BlockSize))
  }

  /** `Player.distance(x, y)`: the cell is the player's own or one of its eight
      neighbours, that is, within distance 1 on both axes. */
  function Near(p: Player, x: int, y: int): (r: bool)
    ensures r <==> Abs(p.position.0 - x) <= 1 && Abs(p.position.1 - y) <= 1
    ensures r <==> (x in {p.position.0 - 1, p.position.0, p.position.0 + 1}
                    && y in {p.position.1 - 1, p.position.1, p.position.1 + 1})
  {
    -1 <= p.position.0 - x <= 1 && -1 <= p.position.1 - y <= 1
  }

  function Abs(n: int): nat {
    if n < 0 then -n else n
  }

  /** `QuantumObject.function`: a pillar lets the player through only when its last
      reading was certainly EMPTY, which is exactly when it is drawn as the faded
      white pillar, whatever its phase marker. */
  function Passable(q: QuantumObject): (r: bool)
    ensures r <==> ColourFor(q.reading, q.phase).alpha == 150
    ensures r ==> ColourFor(q.reading, true) == ColourFor(q.reading, false)
  {
    q.reading == DefinitelyEmpty
  }

  /** The new phase marker, chosen from the state before the effect. */
  function NextPhase(d: Descriptor, reading: Reading, marker: bool): (r: bool)
    ensures reading == DefinitelyEmpty ==> !r
    ensures r != marker ==> d == Plain(Superposition) || d == Plain(Phase) || reading == DefinitelyEmpty
    ensures d == Plain(Superposition) ==> (r <==> reading == DefinitelyFull)
    ensures d == Plain(Phase) && reading != DefinitelyEmpty ==> r == !marker
    ensures !d.Plain? ==> (r <==> marker && reading != DefinitelyEmpty)
  {
    if d == Plain(Superposition) && reading == DefinitelyFull then true
    else if d == Plain(Phase) && reading != DefinitelyEmpty then !marker
    else if d == Plain(Superposition) || reading == DefinitelyEmpty then false
    else marker
  }

  /** Two Phase gates in a row restore the marker: a Phase effect does not change
      what is measured, so the reading it is judged by stays the same. */
  lemma PhaseTwiceRestoresMarker(reading: Reading, marker: bool)
    ensures NextPhase(Plain(Phase), reading, NextPhase(Plain(Phase), reading, marker))
         == (marker && reading != DefinitelyEmpty)
  {
  }

  /** Refreshing after any effect leaves the marker that effect chose, which is why
      the refresh of a pillar that controls itself does not disturb its marker. */
  lemma RefreshKeepsMarker(d: Descriptor, reading: Reading, marker: bool)
    ensures NextPhase(NoEffect, reading, NextPhase(d, reading, marker)) == NextPhase(d, reading, marker)
  {
  }

  /** The colour of a pillar from its reading and its marker. */
  function ColourFor(reading: Reading, marker: bool): (c: Colour)
    ensures c.alpha == 150 <==> reading == DefinitelyEmpty
    ensures reading == DefinitelyEmpty ==> c == Colour(Exact(255), 255, Exact(255), 150)
    ensures reading != DefinitelyEmpty ==> c.alpha == 255 && c.green == (if marker then 220 else 0)
    ensures reading == DefinitelyFull ==> c.red == Exact(0) && c.blue == Exact(255)
  {
    match reading
    case DefinitelyEmpty => Colour(Exact(255), 255, Exact(255), 150)
    case DefinitelyFull => Colour(Exact(0), if marker then 220 else 0, Exact(255), 255)
    case Mixed => Colour(Scaled, if marker then 220 else 0, Scaled, 255)
  }

  /** The marker shows on screen exactly when the pillar is not certainly EMPTY. */
  lemma MarkerVisibleUnlessEmpty(reading: Reading)
    ensures ColourFor(reading, true) != ColourFor(reading, false) <==> reading != DefinitelyEmpty
  {
  }

  /** A pillar after its own part of `apply_effect(d)` with a fresh reading. */
  function Observed(q: QuantumObject, d: Descriptor, reading: Reading): QuantumObject {
    var marker := NextPhase(d, q.reading, q.phase);
    q.(phase := marker, reading := reading, colour := Some(ColourFor(reading, marker)))
  }

  /** Two objects differ at most in a pillar's reading, marker, colour or drag state. */
  predicate SameKind(a: GameObject, b: GameObject) {
    match a
    case Lootable(_, _) => b == a
    case Quantum(q) => b.Quantum? && b.q.id == q.id && b.q.position == q.position
  }

  /** The same keys in the same order, holding objects of the same kind. */
  predicate SameShape(a: Dict<string, GameObject>, b: Dict<string, GameObject>) {
    |a| == |b| && forall j :: 0 <= j < |a| ==> a[j].0 == b[j].0 && SameKind(a[j].1, b[j].1)
  }

  /** The representation invariant the effect rules need: keys are unique, groups
      exist, and every pillar on the board is registered with the grouping system. */
  predicate Registered(g: Game) {
    && WellFormed(g.grouping)
    && UniqueKeys(g.objects)
    && forall j :: 0 <= j < |g.objects| && g.objects[j].1.Quantum? ==> g.objects[j].1.q.id in g.grouping.owner
  }

  /** Every object is filed under the key of its own cell. */
  predicate KeyedByCell(objects: Dict<string, GameObject>) {
    forall j :: 0 <= j < |objects| ==> objects[j].0 == Key(objects[j].1.Cell())
  }

  lemma SameShapeKeys(a: Dict<string, GameObject>, b: Dict<string, GameObject>)
    requires SameShape(a, b)
    ensures Keys(a) == Keys(b)
    ensures UniqueKeys(a) ==> UniqueKeys(b)
    ensures KeyedByCell(a) ==> KeyedByCell(b)
  {
  }

  lemma SameShapeTrans(a: Dict<string, GameObject>, b: Dict<string, GameObject>, c: Dict<string, GameObject>)
    requires SameShape(a, b) && SameShape(b, c)
    ensures SameShape(a, c)
  {
  }

  /** An object found by key in one dictionary has the same kind in a dictionary of
      the same shape. */
  lemma SameShapeGet(a: Dict<string, GameObject>, b: Dict<string, GameObject>, k: string)
    requires SameShape(a, b) && UniqueKeys(a) && k in Keys(a)
    ensures k in Keys(b) && SameKind(Get(a, k), Get(b, k))
  {
    var i := IndexOf(a, k).value;
    IndexOfUnique(a, i);
    SameShapeKeys(a, b);
    IndexOfUnique(b, i);
  }

  /** Writing a pillar of the same identity and cell back under its key keeps the shape. */
  lemma PutKeepsShape(d: Dict<string, GameObject>, k: string, v: GameObject)
    requires UniqueKeys(d) && k in Keys(d) && SameKind(Get(d, k), v)
    ensures SameShape(d, Put(d, k, v))
  {
    var i := IndexOf(d, k).value;
    IndexOfUnique(d, i);
  }

  /** Same-shape boards stay registered when the grouping system only gains objects. */
  lemma ShapeKeepsRegistered(g: Game, objects: Dict<string, GameObject>, gs: GroupingSystem)
    requires Registered(g) && SameShape(g.objects, objects)
    requires WellFormed(gs) && gs.owner.Keys >= g.grouping.owner.Keys
    ensures Registered(g.(objects := objects, grouping := gs))
  {
    SameShapeKeys(g.objects, objects);
  }

  /** Whether a controlled effect's reference cell holds a pillar. */
  predicate ReferenceIsPillar(objects: Dict<string, GameObject>, at: Position) {
    Key(at) in Keys(objects) && Get(objects, Key(at)).Quantum?
  }

  /** The acting pillar's `apply_effect` steps after the simulator call: log the
      effect and cache its group's joint histogram. */
  function Record(g: Game, key: string, d: Descriptor, joint: seq<Outcome>): (r: Game)
    requires Registered(g) && key in Keys(g.objects) && Get(g.objects, key).Quantum?
    ensures r == g.(history := r.history, grouping := r.grouping)
    ensures r.history == g.history + [HistoryEntry(d, Key(Get(g.objects, key).q.position))]
    ensures Registered(r)
  {
    var q := Get(g.objects, key).q;
    assert q.id in g.grouping.owner by {
      var i := IndexOf(g.objects, key).value;
      IndexOfUnique(g.objects, i);
    }
    g.(history := g.history + [HistoryEntry(d, Key(q.position))],
       grouping := SetStates(g.grouping, g.grouping.owner[q.id], joint))
  }

  /** The last steps of `apply_effect`: store the fresh reading and recolour. */
  function Finish(g: Game, key: string, reading: Reading): (r: Game)
    requires Registered(g) && key in Keys(g.objects) && Get(g.objects, key).Quantum?
    ensures r == g.(objects := r.objects) && Registered(r) && SameShape(g.objects, r.objects)
  {
    var q := Get(g.objects, key).q;
    var objects := Put(g.objects, key, Quantum(q.(reading := reading, colour := Some(ColourFor(reading, q.phase)))));
    PutKeepsShape(g.objects, key, Quantum(q.(reading := reading, colour := Some(ColourFor(reading, q.phase)))));
    ShapeKeepsRegistered(g, objects, g.grouping);
    g.(objects := objects)
  }

  /** The first step of `apply_effect`: the pillar's new phase marker. */
  function Mark(g: Game, key: string, d: Descriptor): (r: Game)
    requires Registered(g) && key in Keys(g.objects) && Get(g.objects, key).Quantum?
    ensures r == g.(objects := r.objects) && Registered(r) && SameShape(g.objects, r.objects)
    ensures key in Keys(r.objects)
    ensures Get(r.objects, key) == Quantum(Get(g.objects, key).q.(phase := NextPhase(d, Get(g.objects, key).q.reading, Get(g.objects, key).q.phase)))
  {
    var q := Get(g.objects, key).q;
    var marked := Quantum(q.(phase := NextPhase(d, q.reading, q.phase)));
    PutKeepsShape(g.objects, key, marked);
    var objects := Put(g.objects, key, marked);
    ShapeKeepsRegistered(g, objects, g.grouping);
    g.(objects := objects)
  }

  /** `apply_effect` with no effect (`reference_obj.apply_effect(game)`): the marker
      step, then a fresh reading and colour; nothing is logged or cached. */
  function Refresh(g: Game, key: string, reading: Reading): (r: Game)
    requires Registered(g) && key in Keys(g.objects) && Get(g.objects, key).Quantum?
    ensures r == g.(objects := r.objects) && Registered(r) && SameShape(g.objects, r.objects)
  {
    var g1 := Mark(g, key, NoEffect);
    var g2 := Finish(g1, key, reading);
    SameShapeTrans(g.objects, g1.objects, g2.objects);
    g2
  }

  /** The controlled branch of `apply_effect` between the simulator call and the
      logging: join the two pillars' groups, then refresh the reference pillar. */
  function Entangle(g: Game, key: string, refKey: string, reading: Reading): (r: Game)
    requires Registered(g) && key in Keys(g.objects) && Get(g.objects, key).Quantum?
    requires refKey in Keys(g.objects) && Get(g.objects, refKey).Quantum?
    ensures r == g.(objects := r.objects, grouping := r.grouping)
    ensures Registered(r) && SameShape(g.objects, r.objects)
    ensures key in Keys(r.objects) && Get(r.objects, key).Quantum?
  {
    var q, reference := Get(g.objects, key).q, Get(g.objects, refKey).q;
    assert q.id in g.grouping.owner && reference.id in g.grouping.owner by {
      var i := IndexOf(g.objects, refKey).value;
      IndexOfUnique(g.objects, i);
      var k := IndexOf(g.objects, key).value;
      IndexOfUnique(g.objects, k);
    }
    var joined := Join(g.grouping, q.id, reference.id).0;
    var g2 := g.(grouping := joined);
    var g3 := Refresh(g2, refKey, reading);
    SameShapeGet(g2.objects, g3.objects, key);
    g3
  }

  /** `QuantumObject.apply_effect(game, effect)` for the pillar filed under `key`.
      A controlled effect joins the two pillars' groups and then refreshes the
      reference pillar, a call that applies no effect and so goes no deeper. A
      reference cell with nothing in it raises `KeyError`; one holding a crate makes
      the simulator call fail. */
  function ApplyEffect(g: Game, key: string, d: Descriptor, s: Samples): (r: Result<Game>)
    requires Registered(g) && key in Keys(g.objects) && Get(g.objects, key).Quantum?
    ensures r.Err? <==> d.Controlled? && !ReferenceIsPillar(g.objects, d.reference)
    ensures r.Err? ==> (r.error == KeyError <==> Key(d.reference) !in Keys(g.objects))
    ensures r.Err? ==> r.error == KeyError || r.error == NotQuantumObject
    ensures r.Ok? ==> Registered(r.value) && SameShape(g.objects, r.value.objects)
    ensures r.Ok? ==> r.value == g.(objects := r.value.objects, grouping := r.value.grouping, history := r.value.history)
    ensures r.Ok? ==> r.value.history == g.history + (if d.NoEffect? then [] else [HistoryEntry(d, Key(Get(g.objects, key).q.position))])
  {
    match d
    case NoEffect => Ok(Refresh(g, key, s.target))
    case Plain(_) => Ok(ApplyPlain(g, key, d, s))
    case Controlled(_, at) =>
      if ReferenceIsPillar(g.objects, at) then Ok(ApplyControlled(g, key, d, s))
      else if Key(at) !in Keys(g.objects) then Err(KeyError)
      else Err(NotQuantumObject)
  }

  /** `apply_effect` with an effect of its own: mark, cache the joint outcomes, log,
      then store the fresh reading. */
  function ApplyPlain(g: Game, key: string, d: Descriptor, s: Samples): (r: Game)
    requires Registered(g) && key in Keys(g.objects) && Get(g.objects, key).Quantum? && d.Plain?
    ensures Registered(r) && SameShape(g.objects, r.objects)
    ensures r == g.(objects := r.objects, grouping := r.grouping, history := r.history)
    ensures r.history == g.history + [HistoryEntry(d, Key(Get(g.objects, key).q.position))]
  {
    var g1 := Mark(g, key, d);
    var g2 := Record(g1, key, d, s.joint);
    var g3 := Finish(g2, key, s.target);
    SameShapeTrans(g.objects, g1.objects, g3.objects);
    g3
  }

  /** `apply_effect` with a controlled effect whose reference cell holds a pillar:
      mark, entangle and refresh the reference pillar, cache, log, then store the
      fresh reading. */
  function ApplyControlled(g: Game, key: string, d: Descriptor, s: Samples): (r: Game)
    requires Registered(g) && key in Keys(g.objects) && Get(g.objects, key).Quantum?
    requires d.Controlled? && ReferenceIsPillar(g.objects, d.reference)
    ensures Registered(r) && SameShape(g.objects, r.objects)
    ensures r == g.(objects := r.objects, grouping := r.grouping, history := r.history)
    ensures r.history == g.history + [HistoryEntry(d, Key(Get(g.objects, key).q.position))]
  {
    var g1 := Mark(g, key, d);
    var refKey := Key(d.reference);
    SameShapeKeys(g.objects, g1.objects);
    SameShapeGet(g.objects, g1.objects, refKey);
    var g3 := Entangle(g1, key, refKey, s.reference);
    SameShapeGet(g1.objects, g3.objects, key);
    var g4 := Record(g3, key, d, s.joint);
    var g5 := Finish(g4, key, s.target);
    SameShapeTrans(g.objects, g1.objects, g3.objects);
    SameShapeTrans(g.objects, g3.objects, g5.objects);
    g5
  }

  /** The pillar under `key` after `Finish`, and nothing else touched. */
  lemma FinishFacts(g: Game, key: string, reading: Reading)
    requires Registered(g) && key in Keys(g.objects) && Get(g.objects, key).Quantum?
    ensures var q, r := Get(g.objects, key).q, Finish(g, key, reading);
      && key in Keys(r.objects)
      && Get(r.objects, key) == Quantum(q.(reading := reading, colour := Some(ColourFor(reading, q.phase))))
      && forall j :: 0 <= j < |g.objects| && g.objects[j].0 != key ==> r.objects[j] == g.objects[j]
  {
  }

  /** `Mark` touches only the pillar under `key`. */
  lemma MarkFrame(g: Game, key: string, d: Descriptor)
    requires Registered(g) && key in Keys(g.objects) && Get(g.objects, key).Quantum?
    ensures var r := Mark(g, key, d);
      forall j :: 0 <= j < |g.objects| && g.objects[j].0 != key ==> r.objects[j] == g.objects[j]
  {
  }

  /** A refresh re-reads the pillar under `key` and touches nothing else. */
  lemma RefreshFacts(g: Game, key: string, reading: Reading)
    requires Registered(g) && key in Keys(g.objects) && Get(g.objects, key).Quantum?
    ensures var r := Refresh(g, key, reading);
      && key in Keys(r.objects)
      && Get(r.objects, key) == Quantum(Observed(Get(g.objects, key).q, NoEffect, reading))
      && forall j :: 0 <= j < |g.objects| && g.objects[j].0 != key ==> r.objects[j] == g.objects[j]
  {
    var g1 := Mark(g, key, NoEffect);
    MarkFrame(g, key, NoEffect);
    FinishFacts(g1, key, reading);
  }

  /** `Record` caches the joint outcomes on the acting pillar's group. */
  lemma RecordFacts(g: Game, key: string, d: Descriptor, joint: seq<Outcome>)
    requires Registered(g) && key in Keys(g.objects) && Get(g.objects, key).Quantum?
    ensures Get(g.objects, key).q.id in g.grouping.owner
    ensures Record(g, key, d, joint).grouping
         == SetStates(g.grouping, g.grouping.owner[Get(g.objects, key).q.id], joint)
  {
    var i := IndexOf(g.objects, key).value;
    IndexOfUnique(g.objects, i);
  }

  /** `Entangle` joins the groups, refreshes the reference pillar and nothing else. */
  lemma EntangleFacts(g: Game, key: string, refKey: string, reading: Reading)
    requires Registered(g) && key in Keys(g.objects) && Get(g.objects, key).Quantum?
    requires refKey in Keys(g.objects) && Get(g.objects, refKey).Quantum?
    ensures var q, reference, r := Get(g.objects, key).q, Get(g.objects, refKey).q, Entangle(g, key, refKey, reading);
      && q.id in g.grouping.owner && reference.id in g.grouping.owner
      && r.grouping == Join(g.grouping, q.id, reference.id).0
      && Get(r.objects, refKey) == Quantum(Observed(reference, NoEffect, reading))
      && forall j :: 0 <= j < |g.objects| && g.objects[j].0 != refKey ==> r.objects[j] == g.objects[j]
  {
    var i := IndexOf(g.objects, refKey).value;
    IndexOfUnique(g.objects, i);
    var k := IndexOf(g.objects, key).value;
    IndexOfUnique(g.objects, k);
    var q, reference := Get(g.objects, key).q, Get(g.objects, refKey).q;
    var joined := Join(g.grouping, q.id, reference.id).0;
    RefreshFacts(g.(grouping := joined), refKey, reading);
  }

  /** The plain branch of `apply_effect` as a composition of its steps. */
  lemma UnfoldPlain(g: Game, key: string, d: Descriptor, s: Samples)
    requires Registered(g) && key in Keys(g.objects) && Get(g.objects, key).Quantum? && d.Plain?
    ensures ApplyEffect(g, key, d, s) == Ok(Finish(Record(Mark(g, key, d), key, d, s.joint), key, s.target))
  {
  }

  /** The controlled branch of `apply_effect` as a composition of its steps. */
  lemma UnfoldControlled(g: Game, key: string, d: Descriptor, s: Samples)
    requires Registered(g) && key in Keys(g.objects) && Get(g.objects, key).Quantum?
    requires d.Controlled? && ReferenceIsPillar(g.objects, d.reference)
    ensures var g1, refKey := Mark(g, key, d), Key(d.reference);
      && refKey in Keys(g1.objects) && Get(g1.objects, refKey).Quantum?
      && Get(g1.objects, refKey).q == (if refKey == key then Get(g1.objects, key).q else Get(g.objects, refKey).q)
      && ApplyEffect(g, key, d, s)
         == Ok(Finish(Record(Entangle(g1, key, refKey, s.reference), key, d, s.joint), key, s.target))
  {
    var g1, refKey := Mark(g, key, d), Key(d.reference);
    SameShapeKeys(g.objects, g1.objects);
    if refKey != key {
      MarkedReference(g, key, d);
    }
    ControlledSteps(g, key, d, s);
  }

  /** A controlled effect on a pillar reference is `ApplyControlled`'s four steps. */
  lemma ControlledSteps(g: Game, key: string, d: Descriptor, s: Samples)
    requires Registered(g) && key in Keys(g.objects) && Get(g.objects, key).Quantum?
    requires d.Controlled? && ReferenceIsPillar(g.objects, d.reference)
    ensures var g1, refKey := Mark(g, key, d), Key(d.reference);
      && refKey in Keys(g1.objects) && Get(g1.objects, refKey).Quantum?
      && ApplyEffect(g, key, d, s)
         == Ok(Finish(Record(Entangle(g1, key, refKey, s.reference), key, d, s.joint), key, s.target))
  {
    var g1, refKey := Mark(g, key, d), Key(d.reference);
    SameShapeKeys(g.objects, g1.objects);
    SameShapeGet(g.objects, g1.objects, refKey);
    var g3 := Entangle(g1, key, refKey, s.reference);
    SameShapeGet(g1.objects, g3.objects, key);
    var g5 := Finish(Record(g3, key, d, s.joint), key, s.target);
    assert ApplyControlled(g, key, d, s) == g5;
    ControlledCase(g, key, d, s);
  }

  /** A controlled effect whose reference cell holds a pillar takes the
      `ApplyControlled` branch. */
  lemma ControlledCase(g: Game, key: string, d: Descriptor, s: Samples)
    requires Registered(g) && key in Keys(g.objects) && Get(g.objects, key).Quantum?
    requires d.Controlled? && ReferenceIsPillar(g.objects, d.reference)
    ensures ApplyEffect(g, key, d, s) == Ok(ApplyControlled(g, key, d, s))
  {
  }

  /** Marking the acting pillar leaves a distinct reference pillar as it was. */
  lemma MarkedReference(g: Game, key: string, d: Descriptor)
    requires Registered(g) && key in Keys(g.objects) && Get(g.objects, key).Quantum?
    requires d.Controlled? && ReferenceIsPillar(g.objects, d.reference) && Key(d.reference) != key
    ensures var g1, refKey := Mark(g, key, d), Key(d.reference);
      refKey in Keys(g1.objects) && Get(g1.objects, refKey) == Get(g.objects, refKey)
  {
    var g1, refKey := Mark(g, key, d), Key(d.reference);
    MarkFrame(g, key, d);
    var i := IndexOf(g.objects, refKey).value;
    IndexOfUnique(g.objects, i);
    SameShapeKeys(g.objects, g1.objects);
    assert g1.objects[i] == g.objects[i];
    IndexOfUnique(g1.objects, i);
  }

  /** After the entangling step the acting pillar still holds its marked state; when
      it is its own reference the refresh has re-read it without moving the marker. */
  lemma EntangledPillar(g: Game, key: string, d: Descriptor, reading: Reading)
    requires Registered(g) && key in Keys(g.objects) && Get(g.objects, key).Quantum?
    requires d.Controlled? && ReferenceIsPillar(g.objects, d.reference)
    ensures var g1, refKey := Mark(g, key, d), Key(d.reference);
      && refKey in Keys(g1.objects) && Get(g1.objects, refKey).Quantum?
      && var g3 := Entangle(g1, key, refKey, reading);
      && Registered(g3) && key in Keys(g3.objects)
      && Get(g3.objects, key).Quantum?
      && Get(g3.objects, key).q.phase == NextPhase(d, Get(g.objects, key).q.reading, Get(g.objects, key).q.phase)
      && Get(g3.objects, key).q == Get(g.objects, key).q.(phase := Get(g3.objects, key).q.phase,
                                                          reading := Get(g3.objects, key).q.reading,
                                                          colour := Get(g3.objects, key).q.colour)
      && forall j :: 0 <= j < |g.objects| && g.objects[j].0 != key && g.objects[j].0 != refKey
                     ==> g3.objects[j] == g.objects[j]
  {
    EntangledKey(g, key, d, reading);
    EntangledFrame(g, key, d, reading);
  }

  /** The acting pillar after the marker step and the entangling step. */
  lemma EntangledKey(g: Game, key: string, d: Descriptor, reading: Reading)
    requires Registered(g) && key in Keys(g.objects) && Get(g.objects, key).Quantum?
    requires d.Controlled? && ReferenceIsPillar(g.objects, d.reference)
    ensures var g1, refKey := Mark(g, key, d), Key(d.reference);
      && refKey in Keys(g1.objects) && Get(g1.objects, refKey).Quantum?
      && var g3 := Entangle(g1, key, refKey, reading);
      && Registered(g3) && key in Keys(g3.objects)
      && Get(g3.objects, key).Quantum?
      && Get(g3.objects, key).q.phase == NextPhase(d, Get(g.objects, key).q.reading, Get(g.objects, key).q.phase)
      && Get(g3.objects, key).q == Get(g.objects, key).q.(phase := Get(g3.objects, key).q.phase,
                                                          reading := Get(g3.objects, key).q.reading,
                                                          colour := Get(g3.objects, key).q.colour)
  {
    var q := Get(g.objects, key).q;
    var g1, refKey := Mark(g, key, d), Key(d.reference);
    UnfoldControlled(g, key, Controlled(d.effect, d.reference), Samples(reading, reading, []));
    var g3 := Entangle(g1, key, refKey, reading);
    EntangleFacts(g1, key, refKey, reading);
    SameShapeKeys(g1.objects, g3.objects);
    if refKey != key {
      var i := IndexOf(g1.objects, key).value;
      IndexOfUnique(g1.objects, i);
      IndexOfUnique(g3.objects, i);
    } else {
      RefreshKeepsMarker(d, q.reading, q.phase);
    }
  }

  /** The marker step and the entangling step touch only the two pillars. */
  lemma EntangledFrame(g: Game, key: string, d: Descriptor, reading: Reading)
    requires Registered(g) && key in Keys(g.objects) && Get(g.objects, key).Quantum?
    requires d.Controlled? && ReferenceIsPillar(g.objects, d.reference)
    ensures var g1, refKey := Mark(g, key, d), Key(d.reference);
      && refKey in Keys(g1.objects) && Get(g1.objects, refKey).Quantum?
      && var g3 := Entangle(g1, key, refKey, reading);
      && forall j :: 0 <= j < |g.objects| && g.objects[j].0 != key && g.objects[j].0 != refKey
                     ==> g3.objects[j] == g.objects[j]
  {
    var g1, refKey := Mark(g, key, d), Key(d.reference);
    SameShapeKeys(g.objects, g1.objects);
    SameShapeGet(g.objects, g1.objects, refKey);
    MarkFrame(g, key, d);
    EntangleFacts(g1, key, refKey, reading);
  }

  /** The controlled case of `ApplyEffectUpdatesPillar`. */
  lemma ControlledUpdatesPillar(g: Game, key: string, d: Descriptor, s: Samples)
    requires Registered(g) && key in Keys(g.objects) && Get(g.objects, key).Quantum?
    requires d.Controlled? && ReferenceIsPillar(g.objects, d.reference)
    ensures var r := ApplyEffect(g, key, d, s).value;
      && Get(r.objects, key) == Quantum(Observed(Get(g.objects, key).q, d, s.target))
      && forall j :: 0 <= j < |g.objects| && g.objects[j].0 != key && g.objects[j].0 != Key(d.reference)
                     ==> r.objects[j] == g.objects[j]
  {
    var g1, refKey := Mark(g, key, d), Key(d.reference);
    UnfoldControlled(g, key, d, s);
    EntangledPillar(g, key, d, s.reference);
    var g3 := Entangle(g1, key, refKey, s.reference);
    FinishFacts(Record(g3, key, d, s.joint), key, s.target);
  }

  /** The reference pillar of a controlled effect, when it is not the acting pillar,
      ends re-read and recoloured by the refresh `reference_obj.apply_effect(game)`,
      with the marker that refresh chose from its reading before. */
  lemma ControlledUpdatesReference(g: Game, key: string, d: Descriptor, s: Samples)
    requires Registered(g) && key in Keys(g.objects) && Get(g.objects, key).Quantum?
    requires d.Controlled? && ReferenceIsPillar(g.objects, d.reference) && Key(d.reference) != key
    ensures var (r, refKey) := (ApplyEffect(g, key, d, s).value, Key(d.reference));
      && refKey in Keys(r.objects)
      && Get(r.objects, refKey) == Quantum(Observed(Get(g.objects, refKey).q, NoEffect, s.reference))
  {
    var g1, refKey := Mark(g, key, d), Key(d.reference);
    UnfoldControlled(g, key, d, s);
    var g3 := Entangle(g1, key, refKey, s.reference);
    EntangleFacts(g1, key, refKey, s.reference);
    var g4 := Record(g3, key, d, s.joint);
    var r := Finish(g4, key, s.target);
    FinishFacts(g4, key, s.target);
    var i := IndexOf(g4.objects, refKey).value;
    assert r.objects[i] == g4.objects[i];
    IndexOfUnique(r.objects, i);
  }

  /** After `apply_effect(d)` the pillar acted on carries the marker chosen from its
      state before the effect, the fresh reading, and the colour of both. The
      reference pillar of a controlled effect, if another one, carries its own fresh
      reading; every other object is untouched. */
  lemma ApplyEffectUpdatesPillar(g: Game, key: string, d: Descriptor, s: Samples)
    requires Registered(g) && key in Keys(g.objects) && Get(g.objects, key).Quantum?
    requires ApplyEffect(g, key, d, s).Ok?
    ensures var r := ApplyEffect(g, key, d, s).value;
      && Get(r.objects, key) == Quantum(Observed(Get(g.objects, key).q, d, s.target))
      && (d.Controlled? && Key(d.reference) != key ==>
            && Key(d.reference) in Keys(r.objects) && Key(d.reference) in Keys(g.objects)
            && Get(r.objects, Key(d.reference))
               == Quantum(Observed(Get(g.objects, Key(d.reference)).q, NoEffect, s.reference)))
      && forall j :: 0 <= j < |g.objects| && g.objects[j].0 != key
                     && (d.Controlled? ==> g.objects[j].0 != Key(d.reference))
                     ==> r.objects[j] == g.objects[j]
  {
    if d.NoEffect? {
      RefreshFacts(g, key, s.target);
    } else if d.Plain? {
      UnfoldPlain(g, key, d, s);
      MarkFrame(g, key, d);
      FinishFacts(Record(Mark(g, key, d), key, d, s.joint), key, s.target);
    } else {
      ControlledUpdatesPillar(g, key, d, s);
      if Key(d.reference) != key {
        ControlledUpdatesReference(g, key, d, s);
      }
    }
  }

  /** The plain case of `ApplyEffectGrouping`. */
  lemma PlainGrouping(g: Game, key: string, d: Descriptor, s: Samples)
    requires Registered(g) && key in Keys(g.objects) && Get(g.objects, key).Quantum? && d.Plain?
    requires Valid(g.grouping)
    ensures var r, id := ApplyEffect(g, key, d, s).value.grouping, Get(g.objects, key).q.id;
      && id in g.grouping.owner && Valid(r)
      && r.owner == g.grouping.owner && r.groups == g.grouping.groups
      && r.store[r.owner[id]] == g.grouping.store[g.grouping.owner[id]].(states := Some(s.joint))
  {
    UnfoldPlain(g, key, d, s);
    var g1 := Mark(g, key, d);
    RecordFacts(g1, key, d, s.joint);
  }

  /** The controlled case of `ApplyEffectGrouping`. */
  lemma ControlledGrouping(g: Game, key: string, d: Descriptor, s: Samples)
    requires Registered(g) && key in Keys(g.objects) && Get(g.objects, key).Quantum?
    requires d.Controlled? && ReferenceIsPillar(g.objects, d.reference)
    requires Valid(g.grouping)
    ensures var r := ApplyEffect(g, key, d, s).value.grouping;
      var id, refId := Get(g.objects, key).q.id, Get(g.objects, Key(d.reference)).q.id;
      && id in g.grouping.owner && refId in g.grouping.owner && Valid(r)
      && r.owner.Keys == g.grouping.owner.Keys
      && r.owner[id] == g.grouping.owner[id] && r.owner[refId] == r.owner[id]
      && r.store[r.owner[id]].states == Some(s.joint)
      && (forall o :: o in g.grouping.store[g.grouping.owner[id]].objects ==> o in r.store[r.owner[id]].objects)
      && (forall o :: o in g.grouping.store[g.grouping.owner[refId]].objects ==> o in r.store[r.owner[id]].objects)
  {
    var g1, refKey := Mark(g, key, d), Key(d.reference);
    UnfoldControlled(g, key, d, s);
    SameShapeGet(g.objects, g1.objects, key);
    SameShapeGet(g.objects, g1.objects, refKey);
    var id, refId := Get(g.objects, key).q.id, Get(g.objects, refKey).q.id;
    var g3 := Entangle(g1, key, refKey, s.reference);
    EntangleFacts(g1, key, refKey, s.reference);
    JoinUnites(g.grouping, id, refId);
    SameShapeGet(g1.objects, g3.objects, key);
    RecordFacts(g3, key, d, s.joint);
  }

  /** What `apply_effect` does to the grouping system: nothing for a refresh; a plain
      effect caches the joint outcomes on the pillar's group; a controlled effect
      first merges the pillar's group with the reference pillar's, so that both
      belong to the group holding the cached outcomes. The system stays valid and
      tracks the same objects throughout. */
  lemma ApplyEffectGrouping(g: Game, key: string, d: Descriptor, s: Samples)
    requires Registered(g) && key in Keys(g.objects) && Get(g.objects, key).Quantum?
    requires Valid(g.grouping) && ApplyEffect(g, key, d, s).Ok?
    ensures var r, id := ApplyEffect(g, key, d, s).value.grouping, Get(g.objects, key).q.id;
      && id in g.grouping.owner && Valid(r) && r.owner.Keys == g.grouping.owner.Keys
      && (d.NoEffect? ==> r == g.grouping)
      && (!d.NoEffect? ==> r.store[r.owner[id]].states == Some(s.joint))
      && (d.Plain? ==> r.owner == g.grouping.owner && r.groups == g.grouping.groups)
      && (d.Controlled? ==> r.owner[Get(g.objects, Key(d.reference)).q.id] == r.owner[id])
  {
    var i := IndexOf(g.objects, key).value;
    IndexOfUnique(g.objects, i);
    if d.Plain? {
      PlainGrouping(g, key, d, s);
    } else if d.Controlled? {
      ControlledGrouping(g, key, d, s);
    }
  }

  /** `function(game, x, y)` of the object filed under `key`, the cell the player is
      stepping onto; the flag says whether the player may enter. A crate puts one of
      its gate into the hotbar, leaves the board and lets the player in; a pillar
      lets the player in only when its last reading was certainly EMPTY. */
  function Interact(g: Game, key: string): (r: (Game, bool))
    requires UniqueKeys(g.objects) && key in Keys(g.objects)
    ensures Get(g.objects, key).Quantum? ==> r.0 == g && (r.1 <==> Get(g.objects, key).q.reading == DefinitelyEmpty)
    ensures Get(g.objects, key).Lootable? ==>
      var item := Get(g.objects, key).item;
      && r.1
      && r.0 == g.(objects := r.0.objects, hotbar := r.0.hotbar)
      && key !in Keys(r.0.objects) && |r.0.objects| == |g.objects| - 1 && UniqueKeys(r.0.objects)
      && (forall j :: 0 <= j < |g.objects| && g.objects[j].0 != key ==> g.objects[j] in r.0.objects)
      && (forall j :: 0 <= j < |r.0.objects| ==> r.0.objects[j] in g.objects)
      && (var i := IndexOf(g.objects, key).value;
          && (forall j :: 0 <= j < i ==> r.0.objects[j] == g.objects[j])
          && (forall j :: i <= j < |r.0.objects| ==> r.0.objects[j] == g.objects[j + 1]))
      && item in Keys(r.0.hotbar.slots)
      && Get(r.0.hotbar.slots, item).count
         == 1 + (if item in Keys(g.hotbar.slots) then Get(g.hotbar.slots, item).count else 0)
  {
    match Get(g.objects, key)
    case Lootable(item, _) =>
      (g.(hotbar := AddItem(g.hotbar, item, 1).0, objects := Delete(g.objects, key)), true)
    case Quantum(q) =>
      (g, Passable(q))
  }

  /** Stepping onto any object keeps the board registered with the grouping system. */
  lemma InteractKeepsRegistered(g: Game, key: string)
    requires Registered(g) && key in Keys(g.objects)
    ensures Registered(Interact(g, key).0)
  {
    var r := Interact(g, key).0;
    forall j | 0 <= j < |r.objects| && r.objects[j].1.Quantum?
      ensures r.objects[j].1.q.id in r.grouping.owner
    {
      var i :| 0 <= i < |g.objects| && g.objects[i] == r.objects[j];
    }
  }

  /** The gate picked up from a crate is the one spent next: spending it gives back
      the hotbar the player had before stepping onto the crate. */
  lemma LootThenSpend(g: Game, key: string)
    requires UniqueKeys(g.objects) && key in Keys(g.objects) && Get(g.objects, key).Lootable?
    requires UniqueKeys(g.hotbar.slots) && LaidOut(g.hotbar.slots)
    requires var item := Get(g.objects, key).item;
      item in Keys(g.hotbar.slots) ==> Get(g.hotbar.slots, item).count >= 1
    ensures RemoveByKey(Interact(g, key).0.hotbar, Get(g.objects, key).item) == Ok(g.hotbar)
  {
    PickUpThenSpend(g.hotbar, Get(g.objects, key).item);
  }
}

=== FILE: grouping.dfy ===
/** scripts/grouping_system.py: the list-of-groups partition that records which
    pillars are entangled and therefore have to be read jointly.

    Python groups are mutable objects compared by identity. Here every group ever
    created lives in `store` and is named by its index there; `groups` is the list of
    groups the system still tracks, and `owner` is each object's `group` attribute. */
module Grouping {
  import opened Basics
  import opened Kinds

  type ObjectId = nat
  type GroupId = nat

  /** One outcome of a joint measurement: one pillar value per group member. */
  type Outcome = seq<Pillar>

  /** A `Group`: its members in order and the cached joint histogram, kept as its
      outcomes in sorted order (`None` until an effect has been applied). */
  datatype Group = Group(objects: seq<ObjectId>, states: Option<seq<Outcome>>)

  /** A `GroupingSystem`, together with the `group` back-pointers it rewrites. */
  datatype GroupingSystem = GroupingSystem(
    count: nat,
    groups: seq<GroupId>,
    store: seq<Group>,
    owner: map<ObjectId, GroupId>)

  /** `GroupingSystem()`: no groups and a zero display counter. */
  const Initial := GroupingSystem(0, [], [], map[])

  ghost predicate NoDuplicates<T>(s: seq<T>) {
    forall i, j :: 0 <= i < j < |s| ==> s[i] != s[j]
  }

  /** Every group named anywhere exists. */
  predicate WellFormed(gs: GroupingSystem) {
    && (forall g :: g in gs.groups ==> g < |gs.store|)
    && (forall i :: 0 <= i < |gs.groups| ==> gs.groups[i] < |gs.store|)
    && (forall o :: o in gs.owner ==> gs.owner[o] < |gs.store|)
  }

  /** The partition invariant: the tracked groups are distinct, each registered object
      sits in exactly the tracked group its back-pointer names, and nothing else sits
      in a tracked group. */
  ghost predicate Valid(gs: GroupingSystem) {
    && WellFormed(gs)
    && NoDuplicates(gs.groups)
    && MembersDistinct(gs)
    && PointBack(gs)
    && Covered(gs)
  }

  /** No tracked group holds an object twice. */
  ghost predicate MembersDistinct(gs: GroupingSystem)
    requires WellFormed(gs)
  {
    forall g :: g in gs.groups ==> NoDuplicates(gs.store[g].objects)
  }

  /** Every member of a tracked group points back at that group. */
  ghost predicate PointBack(gs: GroupingSystem)
    requires WellFormed(gs)
  {
    forall g, o :: g in gs.groups && o in gs.store[g].objects ==> o in gs.owner && gs.owner[o] == g
  }

  /** Every registered object sits in the tracked group it points at. */
  ghost predicate Covered(gs: GroupingSystem)
    requires WellFormed(gs)
  {
    forall o :: o in gs.owner ==> gs.owner[o] in gs.groups && o in gs.store[gs.owner[o]].objects
  }

  /** Every object held by some tracked group. */
  ghost function Members(gs: GroupingSystem): set<ObjectId>
    requires WellFormed(gs)
  {
    set g, o | g in gs.groups && o in gs.store[g].objects :: o
  }

  /** The tracked groups cover exactly the registered objects. */
  lemma MembersAreRegistered(gs: GroupingSystem)
    requires Valid(gs)
    ensures Members(gs) == gs.owner.Keys
  {
    forall o | o in gs.owner
      ensures o in Members(gs)
    {
      var g := gs.owner[o];
      assert g in gs.groups && o in gs.store[g].objects;
    }
  }

  /** No registered object is in two tracked groups. */
  lemma ExactlyOneGroup(gs: GroupingSystem, o: ObjectId, g: GroupId, h: GroupId)
    requires Valid(gs)
    requires g in gs.groups && o in gs.store[g].objects
    requires h in gs.groups && o in gs.store[h].objects
    ensures g == h && gs.owner[o] == g
  {
    assert gs.owner[o] == g;
    assert gs.owner[o] == h;
  }

  /** Position in `ids` of the first group whose members include `obj`. */
  function FindIn(store: seq<Group>, ids: seq<GroupId>, obj: ObjectId): (r: Option<nat>)
    requires forall i :: 0 <= i < |ids| ==> ids[i] < |store|
    ensures r.Some? ==> r.value < |ids| && obj in store[ids[r.value]].objects
    ensures r.Some? ==> forall j :: 0 <= j < r.value ==> obj !in store[ids[j]].objects
    ensures r.None? <==> forall j :: 0 <= j < |ids| ==> obj !in store[ids[j]].objects
  {
    if |ids| == 0 then None
    else if obj in store[ids[0]].objects then Some(0)
    else
      match FindIn(store, ids[1..], obj)
      case None => None
      case Some(i) => Some(i + 1)
  }

  /** `find(obj)`: the first tracked group, in list order, holding `obj`. */
  function Find(gs: GroupingSystem, obj: ObjectId): (r: Option<GroupId>)
    requires WellFormed(gs)
    ensures r.Some? ==> r.value in gs.groups && obj in gs.store[r.value].objects
    ensures r.Some? ==> exists i :: 0 <= i < |gs.groups| && gs.groups[i] == r.value
                                    && forall j :: 0 <= j < i ==> obj !in gs.store[gs.groups[j]].objects
    ensures r.None? <==> forall g :: g in gs.groups ==> obj !in gs.store[g].objects
  {
    match FindIn(gs.store, gs.groups, obj)
    case None => None
    case Some(i) => Some(gs.groups[i])
  }

  /** The linear search and the back-pointer agree on every valid system. */
  lemma FindAgreesWithOwner(gs: GroupingSystem, obj: ObjectId)
    requires Valid(gs)
    ensures Find(gs, obj) == if obj in gs.owner then Some(gs.owner[obj]) else None
  {
    if obj in gs.owner {
      var g := gs.owner[obj];
      assert g in gs.groups && obj in gs.store[g].objects;
    }
  }

  /** `list.index(x)`: the position of the first occurrence of `x`. */
  function FirstIndex(s: seq<GroupId>, x: GroupId): (i: nat)
    requires x in s
    ensures i < |s| && s[i] == x && x !in s[..i]
  {
    if s[0] == x then 0
    else
      assert x in s[1..] by {
        var k :| 0 <= k < |s| && s[k] == x;
        assert s[1..][k - 1] == x;
      }
      var i := 1 + FirstIndex(s[1..], x);
      assert s[..i] == [s[0]] + s[1..][..i - 1];
      i
  }

  /** `list.remove(x)`: drops the first occurrence of `x`. */
  function RemoveFirst(s: seq<GroupId>, x: GroupId): (r: seq<GroupId>)
    ensures x in s ==> |r| == |s| - 1
    ensures x !in s ==> r == s
    ensures forall y :: y in r ==> y in s
    ensures forall y :: y in s && y != x ==> y in r
    ensures NoDuplicates(s) ==> NoDuplicates(r) && x !in r
  {
    if |s| == 0 then []
    else if s[0] == x then s[1..]
    else
      var rest := RemoveFirst(s[1..], x);
      assert NoDuplicates(s) ==> s[0] !in s[1..];
      [s[0]] + rest
  }

  /** `list.remove` keeps the order of the other entries: it cuts the list at the
      first occurrence of `x`. */
  lemma {:induction false} RemoveFirstKeepsOrder(s: seq<GroupId>, x: GroupId)
    requires x in s
    ensures RemoveFirst(s, x) == s[..FirstIndex(s, x)] + s[FirstIndex(s, x) + 1..]
  {
    if s[0] != x {
      assert x in s[1..] by {
        var k :| 0 <= k < |s| && s[k] == x;
        assert s[1..][k - 1] == x;
      }
      RemoveFirstKeepsOrder(s[1..], x);
      var i := FirstIndex(s[1..], x);
      assert FirstIndex(s, x) == i + 1;
      assert s[..i + 1] == [s[0]] + s[1..][..i];
      assert s[i + 2..] == s[1..][i + 1..];
    }
  }

  /** Points every object of `objs` at group `g`, leaving the other back-pointers alone. */
  function Repoint(owner: map<ObjectId, GroupId>, objs: seq<ObjectId>, g: GroupId): (r: map<ObjectId, GroupId>)
    ensures r.Keys == owner.Keys + set o | o in objs
    ensures forall o :: o in objs ==> r[o] == g
    ensures forall o :: o in owner && o !in objs ==> r[o] == owner[o]
  {
    map o | o in owner.Keys + (set x | x in objs) :: if o in objs then g else owner[o]
  }

  /** Whether `merge(g1, g2)` does anything. */
  predicate Merges(gs: GroupingSystem, g1: GroupId, g2: GroupId) {
    g1 != g2 && g1 in gs.groups && g2 in gs.groups
  }

  /** `merge(g1, g2)`: `g1` absorbs the members of `g2`, their back-pointers move to
      `g1`, and `g2` stops being tracked (it still holds its old member list). */
  function Merge(gs: GroupingSystem, g1: GroupId, g2: GroupId): (r: GroupingSystem)
    requires WellFormed(gs) && g1 < |gs.store| && g2 < |gs.store|
    ensures WellFormed(r) && |r.store| == |gs.store| && r.count == gs.count
    ensures r.owner.Keys >= gs.owner.Keys
    ensures !Merges(gs, g1, g2) ==> r == gs
    ensures Merges(gs, g1, g2) ==>
      && r.store[g1].objects == gs.store[g1].objects + gs.store[g2].objects
      && r.store[g1].states == gs.store[g1].states
      && (forall g :: 0 <= g < |gs.store| && g != g1 ==> r.store[g] == gs.store[g])
      && |r.groups| == |gs.groups| - 1
      && (forall g :: g in r.groups ==> g in gs.groups)
      && (forall g :: g in gs.groups && g != g2 ==> g in r.groups)
      && (NoDuplicates(gs.groups) ==> g2 !in r.groups)
      && (forall o :: o in gs.store[g2].objects ==> o in r.owner && r.owner[o] == g1)
      && (forall o :: o in gs.owner && o !in gs.store[g2].objects ==> r.owner[o] == gs.owner[o])
  {
    if Merges(gs, g1, g2) then
      var moved := gs.store[g2].objects;
      var joined := Group(gs.store[g1].objects + moved, gs.store[g1].states);
      var rest := RemoveFirst(gs.groups, g2);
      assert forall i :: 0 <= i < |rest| ==> rest[i] in rest;
      GroupingSystem(gs.count, rest, gs.store[g1 := joined], Repoint(gs.owner, moved, g1))
    else
      gs
  }

  /** An effective merge drops `g2` from the tracked list the way `list.remove` does:
      every other group keeps its place relative to the rest, so later passes over the
      list visit them in the same order. */
  lemma MergeKeepsOrder(gs: GroupingSystem, g1: GroupId, g2: GroupId)
    requires WellFormed(gs) && g1 < |gs.store| && g2 < |gs.store| && Merges(gs, g1, g2)
    ensures var i := FirstIndex(gs.groups, g2);
      Merge(gs, g1, g2).groups == gs.groups[..i] + gs.groups[i + 1..]
  {
    RemoveFirstKeepsOrder(gs.groups, g2);
  }

  /** The members of two distinct tracked groups can be concatenated without repeats. */
  lemma MergedMembersDistinct(gs: GroupingSystem, g1: GroupId, g2: GroupId)
    requires Valid(gs) && Merges(gs, g1, g2)
    ensures NoDuplicates(gs.store[g1].objects + gs.store[g2].objects)
  {
    var a, b := gs.store[g1].objects, gs.store[g2].objects;
    forall i, j | 0 <= i < j < |a + b|
      ensures (a + b)[i] != (a + b)[j]
    {
      if i < |a| && j >= |a| {
        assert gs.owner[a[i]] == g1;
        assert gs.owner[b[j - |a|]] == g2;
      }
    }
  }

  /** After a merge the tracked groups are still distinct and none holds an object
      twice. */
  lemma MergeKeepsDistinct(gs: GroupingSystem, g1: GroupId, g2: GroupId)
    requires Valid(gs) && Merges(gs, g1, g2)
    ensures NoDuplicates(Merge(gs, g1, g2).groups) && MembersDistinct(Merge(gs, g1, g2))
  {
    var r := Merge(gs, g1, g2);
    assert r.groups == RemoveFirst(gs.groups, g2);
    MergedMembersDistinct(gs, g1, g2);
    forall g | g in r.groups
      ensures NoDuplicates(r.store[g].objects)
    {
      if g != g1 {
        assert r.store[g] == gs.store[g];
      }
    }
  }

  /** After a merge every member of the absorbing group points back at it. */
  lemma MergeJoinedPointsBack(gs: GroupingSystem, g1: GroupId, g2: GroupId)
    requires Valid(gs) && Merges(gs, g1, g2)
    ensures var r := Merge(gs, g1, g2);
      forall o :: o in r.store[g1].objects ==> o in r.owner && r.owner[o] == g1
  {
    var r := Merge(gs, g1, g2);
    var a, b := gs.store[g1].objects, gs.store[g2].objects;
    forall o | o in r.store[g1].objects
      ensures o in r.owner && r.owner[o] == g1
    {
      if o !in b {
        assert o in a && gs.owner[o] == g1;
      }
    }
  }

  /** After a merge every member of another tracked group still points back at it. */
  lemma MergeOthersPointBack(gs: GroupingSystem, g1: GroupId, g2: GroupId)
    requires Valid(gs) && Merges(gs, g1, g2)
    ensures var r := Merge(gs, g1, g2);
      forall g, o :: g in r.groups && g != g1 && o in r.store[g].objects ==> o in r.owner && r.owner[o] == g
  {
    var r := Merge(gs, g1, g2);
    var b := gs.store[g2].objects;
    forall g, o | g in r.groups && g != g1 && o in r.store[g].objects
      ensures o in r.owner && r.owner[o] == g
    {
      assert g in gs.groups && g != g2;
      assert o in gs.store[g].objects && gs.owner[o] == g;
      assert o !in b;
    }
  }

  /** After a merge every member of a tracked group points back at that group. */
  lemma MergeKeepsBackPointers(gs: GroupingSystem, g1: GroupId, g2: GroupId)
    requires Valid(gs) && Merges(gs, g1, g2)
    ensures PointBack(Merge(gs, g1, g2))
  {
    MergeJoinedPointsBack(gs, g1, g2);
    MergeOthersPointBack(gs, g1, g2);
  }

  /** After a merge every registered object sits in the tracked group it points at. */
  lemma MergeKeepsCoverage(gs: GroupingSystem, g1: GroupId, g2: GroupId)
    requires Valid(gs) && Merges(gs, g1, g2)
    ensures Merge(gs, g1, g2).owner.Keys == gs.owner.Keys
    ensures Covered(Merge(gs, g1, g2))
  {
    var r := Merge(gs, g1, g2);
    var a, b := gs.store[g1].objects, gs.store[g2].objects;
    assert r.owner.Keys == gs.owner.Keys by {
      forall o | o in b ensures o in gs.owner { }
    }
    forall o | o in r.owner
      ensures r.owner[o] in r.groups && o in r.store[r.owner[o]].objects
    {
      if o !in b {
        var h := gs.owner[o];
        assert h != g2;
        if h == g1 {
          assert o in a;
        }
      }
    }
  }

  /** Merging keeps the partition invariant and loses no object. */
  lemma MergePreservesValid(gs: GroupingSystem, g1: GroupId, g2: GroupId)
    requires Valid(gs) && g1 < |gs.store| && g2 < |gs.store|
    ensures Valid(Merge(gs, g1, g2))
    ensures Merge(gs, g1, g2).owner.Keys == gs.owner.Keys
    ensures Members(Merge(gs, g1, g2)) == Members(gs)
  {
    if Merges(gs, g1, g2) {
      MergeValid(gs, g1, g2);
      MembersAreRegistered(gs);
      MembersAreRegistered(Merge(gs, g1, g2));
    }
  }

  /** The three parts of the partition invariant after an effective merge. */
  lemma MergeValid(gs: GroupingSystem, g1: GroupId, g2: GroupId)
    requires Valid(gs) && Merges(gs, g1, g2)
    ensures Valid(Merge(gs, g1, g2)) && Merge(gs, g1, g2).owner.Keys == gs.owner.Keys
  {
    MergeKeepsDistinct(gs, g1, g2);
    MergeKeepsBackPointers(gs, g1, g2);
    MergeKeepsCoverage(gs, g1, g2);
  }

  /** Merging the same pair again changes nothing: `g2` is no longer tracked. */
  lemma MergeIdempotent(gs: GroupingSystem, g1: GroupId, g2: GroupId)
    requires Valid(gs) && g1 < |gs.store| && g2 < |gs.store|
    ensures Merge(Merge(gs, g1, g2), g1, g2) == Merge(gs, g1, g2)
  {
  }

  /** `add(obj, group)`: appends `obj` to the given group, or creates, tracks and
      returns a new singleton group. The caller stores the result in `obj.group`. */
  function Add(gs: GroupingSystem, obj: ObjectId, group: Option<GroupId>): (r: (GroupingSystem, GroupId))
    requires WellFormed(gs) && (group.Some? ==> group.value < |gs.store|)
    ensures WellFormed(r.0) && |r.0.store| >= |gs.store| && r.1 < |r.0.store|
    ensures r.0.owner == gs.owner && r.0.count == gs.count
    ensures group.Some? ==>
      && r.1 == group.value
      && r.0.groups == gs.groups
      && r.0.store[r.1].objects == gs.store[r.1].objects + [obj]
      && (forall g :: 0 <= g < |gs.store| && g != r.1 ==> r.0.store[g] == gs.store[g])
    ensures group.None? ==>
      && r.0.groups == gs.groups + [r.1]
      && r.1 !in gs.groups
      && r.0.store[r.1] == Group([obj], None)
      && r.0.store[..|gs.store|] == gs.store
  {
    match group
    case Some(g) =>
      (gs.(store := gs.store[g := gs.store[g].(objects := gs.store[g].objects + [obj])]), g)
    case None =>
      var id := |gs.store|;
      (gs.(groups := gs.groups + [id], store := gs.store + [Group([obj], None)]), id)
  }

  /** `self.group = add(self)` in `QuantumObject.__init__`: a new object gets its
      own singleton group and a back-pointer to it. */
  function Register(gs: GroupingSystem, obj: ObjectId): (r: GroupingSystem)
    requires WellFormed(gs)
    ensures WellFormed(r)
    ensures obj in r.owner && r.groups == gs.groups + [r.owner[obj]]
    ensures r.store[r.owner[obj]] == Group([obj], None)
    ensures |r.store| == |gs.store| + 1 && r.store[..|gs.store|] == gs.store && r.count == gs.count
    ensures forall o :: o in gs.owner && o != obj ==> o in r.owner && r.owner[o] == gs.owner[o]
  {
    var (added, g) := Add(gs, obj, None);
    added.(owner := added.owner[obj := g])
  }

  /** A fresh object in a new singleton group at the end of the store keeps the
      partition. */
  lemma SingletonKeepsValid(gs: GroupingSystem, obj: ObjectId)
    requires Valid(gs) && obj !in gs.owner
    ensures var n := |gs.store|;
      Valid(GroupingSystem(gs.count, gs.groups + [n], gs.store + [Group([obj], None)], gs.owner[obj := n]))
  {
    var n := |gs.store|;
    var r := GroupingSystem(gs.count, gs.groups + [n], gs.store + [Group([obj], None)], gs.owner[obj := n]);
    assert n !in gs.groups;
    assert NoDuplicates(r.groups);
    forall g, o | g in r.groups && o in r.store[g].objects
      ensures o in r.owner && r.owner[o] == g
    {
      if g != n {
        assert g in gs.groups && r.store[g] == gs.store[g];
        assert gs.owner[o] == g;
      }
    }
    forall o | o in r.owner
      ensures r.owner[o] in r.groups && o in r.store[r.owner[o]].objects
    {
      if o != obj {
        assert gs.owner[o] in gs.groups;
      }
    }
  }

  /** Registering a fresh object keeps the partition and adds exactly that object. */
  lemma RegisterPreservesValid(gs: GroupingSystem, obj: ObjectId)
    requires Valid(gs) && obj !in gs.owner
    ensures Valid(Register(gs, obj))
    ensures Members(Register(gs, obj)) == Members(gs) + {obj}
  {
    var n := |gs.store|;
    assert Register(gs, obj) == GroupingSystem(gs.count, gs.groups + [n], gs.store + [Group([obj], None)], gs.owner[obj := n]);
    SingletonKeepsValid(gs, obj);
    MembersAreRegistered(gs);
    MembersAreRegistered(Register(gs, obj));
  }

  /** `join(a, b)`: merges the groups of `a` and `b` and returns `a`'s group. */
  function Join(gs: GroupingSystem, a: ObjectId, b: ObjectId): (r: (GroupingSystem, GroupId))
    requires WellFormed(gs) && a in gs.owner && b in gs.owner
    ensures WellFormed(r.0) && r.0.owner.Keys >= gs.owner.Keys && r.1 == r.0.owner[a]
    ensures r.0.count == gs.count
  {
    var merged := Merge(gs, gs.owner[a], gs.owner[b]);
    (merged, merged.owner[a])
  }

  /** After `join(a, b)` both objects share the returned group, which is `a`'s old
      group and holds the members of both old groups. */
  lemma JoinUnites(gs: GroupingSystem, a: ObjectId, b: ObjectId)
    requires Valid(gs) && a in gs.owner && b in gs.owner
    ensures var (r, g) := Join(gs, a, b);
      && Valid(r)
      && r.owner.Keys == gs.owner.Keys
      && g == gs.owner[a]
      && r.owner[b] == g
      && g in r.groups
      && (forall o :: o in gs.store[gs.owner[a]].objects ==> o in r.store[g].objects)
      && (forall o :: o in gs.store[gs.owner[b]].objects ==> o in r.store[g].objects)
  {
    var g1, g2 := gs.owner[a], gs.owner[b];
    MergePreservesValid(gs, g1, g2);
    if g1 != g2 {
      assert a !in gs.store[g2].objects;
      assert b in gs.store[g2].objects;
    }
  }

  /** `group.states = histogram`. */
  function SetStates(gs: GroupingSystem, g: GroupId, states: seq<Outcome>): (r: GroupingSystem)
    requires WellFormed(gs) && g < |gs.store|
    ensures WellFormed(r) && |r.store| == |gs.store|
    ensures r.groups == gs.groups && r.owner == gs.owner && r.count == gs.count
    ensures r.store[g].states == Some(states) && r.store[g].objects == gs.store[g].objects
    ensures forall h :: 0 <= h < |gs.store| && h != g ==> r.store[h] == gs.store[h]
    ensures Valid(gs) ==> Valid(r)
  {
    gs.(store := gs.store[g := gs.store[g].(states := Some(states))])
  }
}

=== FILE: hotbar.dfy ===
/** The inventory half of `Hotbar` in scripts/user_interface.py: an insertion-ordered
    map from gate name to item slot, laid out left to right under the board. */
module Hotbar {
  import opened Basics
  import opened OrderedDict

  /** `hotbar.rect.x`, `hotbar.rect.y` and the distance between two slot origins. */
  const HotbarX: int := 175
  const HotbarY: int := 525
  const SlotPitch: int := 55

  /** An `ItemSlot` without its surfaces: how many of the gate are left, where its
      rectangle is, and whether the mouse is dragging it. The name is its key. */
  datatype Slot = Slot(count: int, x: int, y: int, dragging: bool)

  datatype Hotbar = Hotbar(slots: Dict<string, Slot>)

  /** The x coordinate of the `i`-th slot of the bar. */
  function SlotX(i: int): int {
    HotbarX + i * SlotPitch
  }

  /** Every slot sits at its place in the row, in key order. */
  predicate LaidOut(slots: Dict<string, Slot>) {
    forall i :: 0 <= i < |slots| ==> slots[i].1.x == SlotX(i) && slots[i].1.y == HotbarY
  }

  /** `update_slots()`: moves every slot to the x coordinate of its position. */
  function UpdateSlots(slots: Dict<string, Slot>): (r: Dict<string, Slot>)
    ensures |r| == |slots| && Keys(r) == Keys(slots)
    ensures forall i :: 0 <= i < |r| ==> r[i].1 == slots[i].1.(x := SlotX(i))
    ensures (forall i :: 0 <= i < |slots| ==> slots[i].1.y == HotbarY) ==> LaidOut(r)
  {
    seq(|slots|, i requires 0 <= i < |slots| => (slots[i].0, slots[i].1.(x := SlotX(i))))
  }

  /** `add_item(item, count)`: raises the count of an existing slot, or appends a new
      slot at the next free place; returns the slot. */
  function AddItem(h: Hotbar, item: string, count: int): (r: (Hotbar, Slot))
    ensures item in Keys(r.0.slots) && r.1 == Get(r.0.slots, item)
    ensures UniqueKeys(h.slots) ==> UniqueKeys(r.0.slots)
    ensures item in Keys(h.slots) ==>
      && Keys(r.0.slots) == Keys(h.slots)
      && r.1 == Get(h.slots, item).(count := Get(h.slots, item).count + count)
      && forall j :: 0 <= j < |h.slots| && h.slots[j].0 != item ==> r.0.slots[j] == h.slots[j]
    ensures item !in Keys(h.slots) ==>
      r.0.slots == h.slots + [(item, Slot(count, SlotX(|h.slots|), HotbarY, false))]
  {
    if item in Keys(h.slots) then
      var slot := Get(h.slots, item);
      var raised := slot.(count := slot.count + count);
      (Hotbar(Put(h.slots, item, raised)), raised)
    else
      var slot := Slot(count, SlotX(|h.slots|), HotbarY, false);
      (Hotbar(Put(h.slots, item, slot)), slot)
  }

  /** `remove_by_key(key)`: spends one of the gate; a slot whose count drops to zero
      or below disappears and the remaining slots close ranks. A missing key raises
      `KeyError`. */
  function RemoveByKey(h: Hotbar, key: string): (r: Result<Hotbar>)
    requires UniqueKeys(h.slots)
    ensures r.Err? <==> key !in Keys(h.slots)
    ensures r.Ok? ==> UniqueKeys(r.value.slots)
    ensures r.Ok? && Get(h.slots, key).count > 1 ==>
      && Keys(r.value.slots) == Keys(h.slots)
      && Get(r.value.slots, key) == Get(h.slots, key).(count := Get(h.slots, key).count - 1)
      && forall j :: 0 <= j < |h.slots| && h.slots[j].0 != key ==> r.value.slots[j] == h.slots[j]
    ensures r.Ok? && Get(h.slots, key).count <= 1 ==>
      && key !in Keys(r.value.slots)
      && |r.value.slots| == |h.slots| - 1
      && (forall j :: 0 <= j < |h.slots| && h.slots[j].0 != key ==> h.slots[j].0 in Keys(r.value.slots))
      && (forall i :: 0 <= i < |r.value.slots| ==> r.value.slots[i].1.x == SlotX(i))
    ensures r.Ok? && Get(h.slots, key).count <= 1 ==>
      var (i, rest) := (IndexOf(h.slots, key).value, r.value.slots);
      && (forall j :: 0 <= j < i ==> rest[j] == (h.slots[j].0, h.slots[j].1.(x := SlotX(j))))
      && (forall j :: i <= j < |rest| ==> rest[j] == (h.slots[j + 1].0, h.slots[j + 1].1.(x := SlotX(j))))
  {
    if key !in Keys(h.slots) then Err(KeyError)
    else
      var slot := Get(h.slots, key);
      var left := slot.count - 1;
      if left <= 0 then
        ClosedRanks(h.slots, key);
        Ok(Hotbar(UpdateSlots(Delete(h.slots, key))))
      else
        Ok(Hotbar(Put(h.slots, key, slot.(count := left))))
  }

  /** The row after the slot under `key` is deleted and the rest close ranks: the
      slots before it stay, the slots after it move one place left. */
  lemma ClosedRanks(slots: Dict<string, Slot>, key: string)
    requires UniqueKeys(slots) && key in Keys(slots)
    ensures var (i, rest) := (IndexOf(slots, key).value, UpdateSlots(Delete(slots, key)));
      && |rest| == |slots| - 1
      && (forall j :: 0 <= j < i ==> rest[j] == (slots[j].0, slots[j].1.(x := SlotX(j))))
      && (forall j :: i <= j < |rest| ==> rest[j] == (slots[j + 1].0, slots[j + 1].1.(x := SlotX(j))))
  {
    var d := Delete(slots, key);
    assert forall j :: 0 <= j < |d| ==> UpdateSlots(d)[j] == (d[j].0, d[j].1.(x := SlotX(j))) by {
      forall j | 0 <= j < |d| ensures UpdateSlots(d)[j] == (d[j].0, d[j].1.(x := SlotX(j))) {
        assert Keys(UpdateSlots(d))[j] == Keys(d)[j];
      }
    }
  }

  /** Closing ranks moves slots but keeps their keys, order and counts. */
  lemma UpdateSlotsKeepsCounts(slots: Dict<string, Slot>, key: string)
    requires UniqueKeys(slots) && key in Keys(slots)
    ensures key in Keys(UpdateSlots(slots)) && Get(UpdateSlots(slots), key).count == Get(slots, key).count
  {
    var r := UpdateSlots(slots);
    var i := IndexOf(slots, key).value;
    assert UniqueKeys(r) by {
      assert forall a :: 0 <= a < |r| ==> r[a].0 == Keys(r)[a] == Keys(slots)[a] == slots[a].0;
    }
    IndexOfUnique(r, i);
  }

  /** The slot counts of every other gate survive spending one gate. */
  lemma RemoveByKeyKeepsOtherCounts(h: Hotbar, key: string, other: string)
    requires UniqueKeys(h.slots) && key in Keys(h.slots)
    requires other in Keys(h.slots) && other != key
    ensures other in Keys(RemoveByKey(h, key).value.slots)
    ensures Get(RemoveByKey(h, key).value.slots, other).count == Get(h.slots, other).count
  {
    var p := IndexOf(h.slots, other).value;
    IndexOfUnique(h.slots, p);
    var r := RemoveByKey(h, key).value.slots;
    if Get(h.slots, key).count <= 1 {
      var i := IndexOf(h.slots, key).value;
      var p' := if p < i then p else p - 1;
      assert r[p'] == (other, h.slots[p].1.(x := SlotX(p')));
      IndexOfUnique(r, p');
    } else {
      assert r[p] == h.slots[p];
      IndexOfUnique(r, p);
    }
  }

  /** Rewriting a slot without moving it keeps a laid-out bar laid out. */
  lemma PutInPlaceKeepsLayout(slots: Dict<string, Slot>, key: string, v: Slot)
    requires LaidOut(slots) && key in Keys(slots)
    requires v.x == Get(slots, key).x && v.y == Get(slots, key).y
    ensures LaidOut(Put(slots, key, v))
  {
    var i := IndexOf(slots, key).value;
    var r := Put(slots, key, v);
    forall j | 0 <= j < |r|
      ensures r[j].1.x == SlotX(j) && r[j].1.y == HotbarY
    {
      if j != i {
        assert r[j] == slots[j];
      }
    }
  }

  /** A bar whose slots are in place stays in place after a pickup. */
  lemma AddItemKeepsLayout(h: Hotbar, item: string, count: int)
    requires UniqueKeys(h.slots) && LaidOut(h.slots)
    ensures LaidOut(AddItem(h, item, count).0.slots)
  {
    if item in Keys(h.slots) {
      var slot := Get(h.slots, item);
      PutInPlaceKeepsLayout(h.slots, item, slot.(count := slot.count + count));
    }
  }

  /** A bar whose slots are in place stays in place after spending a gate. */
  lemma RemoveByKeyKeepsLayout(h: Hotbar, key: string)
    requires UniqueKeys(h.slots) && LaidOut(h.slots) && key in Keys(h.slots)
    ensures LaidOut(RemoveByKey(h, key).value.slots)
  {
    var slot := Get(h.slots, key);
    var i := IndexOf(h.slots, key).value;
    IndexOfUnique(h.slots, i);
    if slot.count - 1 > 0 {
      assert Put(h.slots, key, slot.(count := slot.count - 1)) == h.slots[i := (key, slot.(count := slot.count - 1))];
    } else {
      var rest := Delete(h.slots, key);
      assert forall j :: 0 <= j < |rest| ==> rest[j].1.y == HotbarY;
    }
  }

  /** Picking up one more of a gate already held and spending it restores the bar. */
  lemma PickUpHeldThenSpend(h: Hotbar, item: string)
    requires UniqueKeys(h.slots) && item in Keys(h.slots) && Get(h.slots, item).count >= 1
    ensures RemoveByKey(AddItem(h, item, 1).0, item) == Ok(h)
  {
    var slot := Get(h.slots, item);
    var added := Hotbar(Put(h.slots, item, slot.(count := slot.count + 1)));
    AddHeld(h, item, 1);
    assert AddItem(h, item, 1).0 == added;
    assert UniqueKeys(added.slots) && Get(added.slots, item) == slot.(count := slot.count + 1);
    SpendRaised(added, item, slot);
    PutBack(h.slots, item, slot.(count := slot.count + 1));
    assert Put(added.slots, item, slot) == h.slots;
  }

  /** Picking up a gate already held rewrites its slot in place. */
  lemma AddHeld(h: Hotbar, item: string, count: int)
    requires item in Keys(h.slots)
    ensures var slot := Get(h.slots, item);
      AddItem(h, item, count).0 == Hotbar(Put(h.slots, item, slot.(count := slot.count + count)))
  {
  }

  /** Spending a gate whose slot was raised by one from `prev` writes `prev` back. */
  lemma SpendRaised(h: Hotbar, key: string, prev: Slot)
    requires UniqueKeys(h.slots) && key in Keys(h.slots) && prev.count >= 1
    requires Get(h.slots, key) == prev.(count := prev.count + 1)
    ensures RemoveByKey(h, key) == Ok(Hotbar(Put(h.slots, key, prev)))
  {
    var slot := Get(h.slots, key);
    assert slot.count - 1 > 0 && slot.(count := slot.count - 1) == prev;
    assert RemoveByKey(h, key) == Ok(Hotbar(Put(h.slots, key, slot.(count := slot.count - 1))));
  }

  /** Picking up a gate not yet held and spending it restores a laid-out bar. */
  lemma PickUpNewThenSpend(h: Hotbar, item: string)
    requires UniqueKeys(h.slots) && LaidOut(h.slots) && item !in Keys(h.slots)
    ensures RemoveByKey(AddItem(h, item, 1).0, item) == Ok(h)
  {
    var added := AddItem(h, item, 1).0;
    var n := |h.slots|;
    IndexOfUnique(added.slots, n);
    assert Delete(added.slots, item) == added.slots[..n] + added.slots[n + 1..];
    assert added.slots[..n] + added.slots[n + 1..] == h.slots;
    assert UpdateSlots(h.slots) == h.slots;
  }

  /** Picking up one gate and spending it gives back the same bar, provided the bar
      is laid out and any existing slot of that gate is not already empty. */
  lemma PickUpThenSpend(h: Hotbar, item: string)
    requires UniqueKeys(h.slots) && LaidOut(h.slots)
    requires item in Keys(h.slots) ==> Get(h.slots, item).count >= 1
    ensures RemoveByKey(AddItem(h, item, 1).0, item) == Ok(h)
  {
    if item in Keys(h.slots) {
      PickUpHeldThenSpend(h, item);
    } else {
      PickUpNewThenSpend(h, item);
    }
  }

  /** Every slot not being dragged sits at its place in the row. */
  predicate Settled(slots: Dict<string, Slot>) {
    forall i :: 0 <= i < |slots| && !slots[i].1.dragging ==> slots[i].1.x == SlotX(i) && slots[i].1.y == HotbarY
  }

  /** Every slot not being dragged, except the one filed under `key`, sits at its
      place in the row; a slot follows the mouse only while it is dragged. */
  predicate SettledExcept(slots: Dict<string, Slot>, key: string) {
    forall i :: 0 <= i < |slots| && slots[i].0 != key && !slots[i].1.dragging ==>
      slots[i].1.x == SlotX(i) && slots[i].1.y == HotbarY
  }

  /** No slot is being dragged. */
  predicate NoneDragged(slots: Dict<string, Slot>) {
    forall i :: 0 <= i < |slots| ==> !slots[i].1.dragging
  }

  /** Spending a gate keeps the other resting slots in place and drags no slot. */
  lemma RemoveByKeyKeepsSettled(h: Hotbar, key: string)
    requires UniqueKeys(h.slots) && key in Keys(h.slots) && SettledExcept(h.slots, key)
    ensures SettledExcept(RemoveByKey(h, key).value.slots, key)
    ensures NoneDragged(h.slots) ==> NoneDragged(RemoveByKey(h, key).value.slots)
  {
    var slot := Get(h.slots, key);
    var i := IndexOf(h.slots, key).value;
    IndexOfUnique(h.slots, i);
    if slot.count - 1 > 0 {
      assert Put(h.slots, key, slot.(count := slot.count - 1)) == h.slots[i := (key, slot.(count := slot.count - 1))];
    } else {
      var r := RemoveByKey(h, key).value.slots;
      forall m | 0 <= m < |r|
        ensures r[m].1.dragging || (r[m].1.x == SlotX(m) && r[m].1.y == HotbarY)
        ensures NoneDragged(h.slots) ==> !r[m].1.dragging
      {
        var n := if m < i then m else m + 1;
        assert r[m] == (h.slots[n].0, h.slots[n].1.(x := SlotX(m)));
        assert h.slots[n].0 != key;
      }
    }
  }
}

=== FILE: hotbar_actions.dfy ===
/** `Hotbar.remove_item` in scripts/user_interface.py: using a gate from the hotbar on
    the pillar under the mouse. A pillar counts as under the mouse when its sprite
    rectangle contains the pointer; which rectangles do is an input, `hits`, the set
    of board keys whose sprites the pointer is over. */
module HotbarActions {
  import opened Basics
  import opened OrderedDict
  import opened PositionKey
  import opened Kinds
  import opened Hotbar
  import opened GameObjects
  import Grouping

  /** Whether the object at index `j` is a pillar under the pointer and within reach
      of the player. */
  predicate Target(objects: Dict<string, GameObject>, hits: set<string>, p: Player, j: nat)
    requires j < |objects|
  {
    && objects[j].1.Quantum?
    && objects[j].0 in hits
    && Near(p, objects[j].1.q.position.0, objects[j].1.q.position.1)
  }

  /** The index of the pillar the loop of `remove_item` stops at. */
  function FirstTarget(objects: Dict<string, GameObject>, hits: set<string>, p: Player): (r: Option<nat>)
    ensures r.Some? ==> r.value < |objects| && Target(objects, hits, p, r.value)
    ensures r.Some? ==> forall j :: 0 <= j < r.value ==> !Target(objects, hits, p, j)
    ensures r.None? <==> forall j :: 0 <= j < |objects| ==> !Target(objects, hits, p, j)
  {
    var isTarget := (j: nat) => j < |objects| && Target(objects, hits, p, j);
    var r := First(|objects|, isTarget);
    assert forall j :: 0 <= j < |objects| ==> (isTarget(j) <==> Target(objects, hits, p, j));
    r
  }

  /** `slot.effect` for the gate `name`, as `apply_effect` receives it: the gate's
      effect, or nothing for a name the catalogue has no effect for. */
  function GateDescriptor(name: string): (d: Descriptor)
    ensures d.NoEffect? <==> GateEffect(name).None?
    ensures d.Plain? ==> GateEffect(name) == Some(d.effect)
    ensures !d.Controlled?
  {
    match GateEffect(name)
    case Some(e) => Plain(e)
    case None => NoEffect
  }

  /** The pillar filed at index `j`, read back by its key. */
  lemma TargetIsPillar(g: Game, hits: set<string>, j: nat)
    requires Registered(g) && j < |g.objects| && Target(g.objects, hits, g.player, j)
    ensures g.objects[j].0 in Keys(g.objects) && Get(g.objects, g.objects[j].0) == g.objects[j].1
  {
    IndexOfUnique(g.objects, j);
  }

  /** `remove_item(game, event, key)`. Nothing happens when the hotbar holds no such
      gate or no pillar in reach is under the pointer. A control gate only marks the
      first such pillar as dragged with that gate as its control and is not spent
      yet. Any other gate is applied to the pillar and one of it is spent. */
  function RemoveItem(g: Game, hits: set<string>, key: string, s: Samples): (r: Game)
    requires Registered(g) && UniqueKeys(g.hotbar.slots)
    ensures Registered(r) && UniqueKeys(r.hotbar.slots) && SameShape(g.objects, r.objects)
    ensures r.tiles == g.tiles && r.player == g.player && r.level == g.level
    ensures key !in Keys(g.hotbar.slots) || FirstTarget(g.objects, hits, g.player).None? ==> r == g
    ensures key in Keys(g.hotbar.slots) && FirstTarget(g.objects, hits, g.player).Some? && IsControlGate(key) ==>
      var j := FirstTarget(g.objects, hits, g.player).value;
      && r == g.(objects := r.objects)
      && r.objects[j].1 == Quantum(g.objects[j].1.q.(dragging := true, control := Some(key)))
      && forall i :: 0 <= i < |g.objects| && i != j ==> r.objects[i] == g.objects[i]
    ensures key in Keys(g.hotbar.slots) && FirstTarget(g.objects, hits, g.player).Some? && !IsControlGate(key) ==>
      var j := FirstTarget(g.objects, hits, g.player).value;
      && r.hotbar == RemoveByKey(g.hotbar, key).value
      && r.history == g.history + (if GateEffect(key).Some? then [HistoryEntry(GateDescriptor(key), Key(g.objects[j].1.q.position))] else [])
  {
    if key !in Keys(g.hotbar.slots) then g
    else match FirstTarget(g.objects, hits, g.player)
      case None => g
      case Some(j) =>
        var (tk, q) := (g.objects[j].0, g.objects[j].1.q);
        TargetIsPillar(g, hits, j);
        if IsControlGate(key) then
          var held := Quantum(q.(dragging := true, control := Some(key)));
          PutKeepsShape(g.objects, tk, held);
          ShapeKeepsRegistered(g, Put(g.objects, tk, held), g.grouping);
          IndexOfUnique(g.objects, j);
          g.(objects := Put(g.objects, tk, held))
        else
          var g1 := ApplyEffect(g, tk, GateDescriptor(key), s).value;
          g1.(hotbar := RemoveByKey(g1.hotbar, key).value)
  }

  /** The pillar a gate is used on takes the gate's effect and a fresh reading, and
      no other object on the board except it changes. */
  lemma RemoveItemUpdatesTarget(g: Game, hits: set<string>, key: string, s: Samples)
    requires Registered(g) && UniqueKeys(g.hotbar.slots)
    requires key in Keys(g.hotbar.slots) && !IsControlGate(key)
    requires FirstTarget(g.objects, hits, g.player).Some?
    ensures var j, r := FirstTarget(g.objects, hits, g.player).value, RemoveItem(g, hits, key, s);
      && r.objects[j].1 == Quantum(Observed(g.objects[j].1.q, GateDescriptor(key), s.target))
      && forall i :: 0 <= i < |g.objects| && i != j ==> r.objects[i] == g.objects[i]
  {
    var j := FirstTarget(g.objects, hits, g.player).value;
    var tk := g.objects[j].0;
    TargetIsPillar(g, hits, j);
    var r := ApplyEffect(g, tk, GateDescriptor(key), s).value;
    ApplyEffectUpdatesPillar(g, tk, GateDescriptor(key), s);
    SameShapeKeys(g.objects, r.objects);
    IndexOfUnique(r.objects, j);
    forall i | 0 <= i < |g.objects| && i != j
      ensures r.objects[i] == g.objects[i]
    {
      IndexOfUnique(g.objects, i);
    }
  }

  /** What a used gate does to the grouping system. A gate with an effect caches the
      joint outcomes on the target's group and leaves every pillar in its group; a
      gate without one leaves the grouping system as it was. */
  lemma RemoveItemGrouping(g: Game, hits: set<string>, key: string, s: Samples)
    requires Registered(g) && UniqueKeys(g.hotbar.slots) && Grouping.Valid(g.grouping)
    requires key in Keys(g.hotbar.slots) && !IsControlGate(key)
    requires FirstTarget(g.objects, hits, g.player).Some?
    ensures var j, r := FirstTarget(g.objects, hits, g.player).value, RemoveItem(g, hits, key, s);
      var id := g.objects[j].1.q.id;
      && id in g.grouping.owner && Grouping.Valid(r.grouping)
      && (GateEffect(key).Some? ==>
            && r.grouping.owner == g.grouping.owner && r.grouping.groups == g.grouping.groups
            && r.grouping.store[r.grouping.owner[id]] == g.grouping.store[g.grouping.owner[id]].(states := Some(s.joint)))
      && (GateEffect(key).None? ==> r.grouping == g.grouping)
  {
    var j := FirstTarget(g.objects, hits, g.player).value;
    var tk := g.objects[j].0;
    TargetIsPillar(g, hits, j);
    if GateEffect(key).Some? {
      PlainGrouping(g, tk, GateDescriptor(key), s);
    } else {
      ApplyEffectGrouping(g, tk, GateDescriptor(key), s);
    }
  }

  /** Using a gate spends at most one of it and never touches another gate's count. */
  lemma RemoveItemSpendsAtMostOne(g: Game, hits: set<string>, key: string, s: Samples, other: string)
    requires Registered(g) && UniqueKeys(g.hotbar.slots)
    requires other in Keys(g.hotbar.slots)
    ensures var r := RemoveItem(g, hits, key, s).hotbar;
      && (other != key ==> other in Keys(r.slots) && Get(r.slots, other).count == Get(g.hotbar.slots, other).count)
      && (other == key && other in Keys(r.slots) ==>
            (Get(r.slots, key).count == Get(g.hotbar.slots, key).count
             || Get(r.slots, key).count == Get(g.hotbar.slots, key).count - 1))
  {
    var t := FirstTarget(g.objects, hits, g.player);
    if t.Some? && !IsControlGate(key) && key in Keys(g.hotbar.slots) && other != key {
      RemoveByKeyKeepsOtherCounts(g.hotbar, key, other);
    }
  }
}

=== FILE: kinds.dfy ===
/** The enumerations, constants and gate catalogue declared at the top of
    scripts/game_objects.py. */
module Kinds {
  import opened Basics

  /** The two measurement outcomes of a pillar (`Pillar.EMPTY = 0`, `Pillar.FULL = 1`). */
  datatype Pillar = Empty | Full {
    /** The integer the simulator reports for this outcome. */
    function Value(): nat {
      if Empty? then 0 else 1
    }
  }

  /** The tile kinds a level can place on the grid. */
  datatype TileType = EmptyTile | StartTile | EndTile | DelTile | WallTile

  const ScaleFactor: nat := 4
  /** Side of one grid cell in pixels. */
  const BlockSize: nat := 16 * ScaleFactor

  /** The simulator effects the hotbar gates stand for: `alpha.Flip`,
      `alpha.Superposition`, `alpha.Phase` and the `FlipPhase` rotation behind `RotY`. */
  datatype Effect = Flip | Superposition | Phase | RotY

  /** `gates.get(name)`: the effect of a gate, `None` for the control gates and for
      every name the catalogue does not list. */
  function GateEffect(name: string): (r: Option<Effect>)
    ensures r.Some? ==> name in {"X", "H", "Z", "RotY"}
    ensures name in {"X", "H", "Z", "RotY"} ==> r.Some?
    ensures name == "X" ==> r == Some(Flip)
    ensures name == "H" ==> r == Some(Superposition)
    ensures name == "Z" ==> r == Some(Phase)
    ensures name == "RotY" ==> r == Some(RotY)
  {
    if name == "X" then Some(Flip)
    else if name == "H" then Some(Superposition)
    else if name == "Z" then Some(Phase)
    else if name == "RotY" then Some(RotY)
    else None
  }

  /** `name in control_gates`: gates that need a second object before they act. */
  predicate IsControlGate(name: string) {
    name == "CNOT" || name == "CHAD"
  }

  /** The effect a control gate applies to its second object once dropped on it. */
  function ControlEffect(control: string): (r: Option<Effect>)
    ensures r.Some? <==> IsControlGate(control)
    ensures control == "CNOT" ==> r == Some(Flip)
    ensures control == "CHAD" ==> r == Some(Superposition)
  {
    if control == "CNOT" then Some(Flip)
    else if control == "CHAD" then Some(Superposition)
    else None
  }

  /** No gate is both applied directly and used as a control. */
  lemma ControlGatesHaveNoDirectEffect(name: string)
    ensures IsControlGate(name) ==> GateEffect(name).None?
    ensures GateEffect(name).Some? ==> ControlEffect(name).None?
  {
  }
}

=== FILE: ordered_dict.dfy ===
/** Python's `dict`, which iterates in insertion order: updating a key keeps its
    place, inserting a new key appends it, deleting a key closes the gap. The hotbar's
    `slots` and the game's `objects` are such dictionaries. */
module OrderedDict {
  import opened Basics

  type Dict<K, V> = seq<(K, V)>

  /** The keys in iteration order. */
  function Keys<K, V>(d: Dict<K, V>): (ks: seq<K>)
    ensures |ks| == |d|
    ensures forall i :: 0 <= i < |d| ==> ks[i] == d[i].0
  {
    seq(|d|, i requires 0 <= i < |d| => d[i].0)
  }

  /** A dictionary never holds a key twice. */
  predicate UniqueKeys<K(==), V>(d: Dict<K, V>) {
    forall i, j :: 0 <= i < j < |d| ==> d[i].0 != d[j].0
  }

  /** The position of `k` in iteration order. */
  function IndexOf<K(==), V>(d: Dict<K, V>, k: K): (r: Option<nat>)
    ensures r.Some? ==> r.value < |d| && d[r.value].0 == k
    ensures r.Some? ==> forall j :: 0 <= j < r.value ==> d[j].0 != k
    ensures r.None? <==> k !in Keys(d)
  {
    if |d| == 0 then None
    else if d[0].0 == k then Some(0)
    else
      match IndexOf(d[1..], k)
      case None => None
      case Some(i) => Some(i + 1)
  }

  /** In a dictionary the key found at any position is found there by `IndexOf`. */
  lemma IndexOfUnique<K, V>(d: Dict<K, V>, i: nat)
    requires UniqueKeys(d) && i < |d|
    ensures IndexOf(d, d[i].0) == Some(i)
  {
  }

  /** `d[k]`. */
  function Get<K(==), V>(d: Dict<K, V>, k: K): (v: V)
    requires k in Keys(d)
    ensures exists i :: 0 <= i < |d| && d[i] == (k, v)
  {
    d[IndexOf(d, k).value].1
  }

  /** `d[k] = v`: replaces the value in place, or appends a new entry. */
  function Put<K(==), V>(d: Dict<K, V>, k: K, v: V): (r: Dict<K, V>)
    ensures k in Keys(d) ==> Keys(r) == Keys(d) && r == d[IndexOf(d, k).value := (k, v)]
    ensures k !in Keys(d) ==> Keys(r) == Keys(d) + [k] && r == d + [(k, v)]
    ensures k in Keys(r) && Get(r, k) == v
    ensures forall j :: 0 <= j < |d| && d[j].0 != k ==> r[j] == d[j]
    ensures UniqueKeys(d) ==> UniqueKeys(r)
  {
    match IndexOf(d, k)
    case Some(i) => d[i := (k, v)]
    case None => d + [(k, v)]
  }

  /** `del d[k]` (a no-op when `k` is absent). */
  function Delete<K(==), V>(d: Dict<K, V>, k: K): (r: Dict<K, V>)
    ensures k !in Keys(d) ==> r == d
    ensures k in Keys(d) ==> |r| == |d| - 1
    ensures UniqueKeys(d) ==> UniqueKeys(r) && k !in Keys(r)
    ensures forall j :: 0 <= j < |r| ==> r[j] in d
    ensures forall j :: 0 <= j < |d| && d[j].0 != k ==> d[j] in r && d[j].0 in Keys(r)
    ensures k in Keys(d) ==> var i := IndexOf(d, k).value;
      && (forall j :: 0 <= j < i ==> r[j] == d[j])
      && (forall j :: i <= j < |r| ==> r[j] == d[j + 1])
  {
    match IndexOf(d, k)
    case Some(i) =>
      var r := d[..i] + d[i + 1..];
      DeleteAt(d, i, r);
      r
    case None => d
  }

  /** The facts behind `Delete`: removing position `i` shifts the later entries down. */
  lemma DeleteAt<K, V>(d: Dict<K, V>, i: nat, r: Dict<K, V>)
    requires i < |d| && r == d[..i] + d[i + 1..]
    requires forall j :: 0 <= j < i ==> d[j].0 != d[i].0
    ensures |r| == |d| - 1
    ensures forall j :: 0 <= j < i ==> r[j] == d[j]
    ensures forall j :: i <= j < |r| ==> r[j] == d[j + 1]
    ensures UniqueKeys(d) ==> UniqueKeys(r) && d[i].0 !in Keys(r)
    ensures forall j :: 0 <= j < |r| ==> r[j] in d
    ensures forall j :: 0 <= j < |d| && d[j].0 != d[i].0 ==> d[j] in r && d[j].0 in Keys(r)
  {
    assert forall j :: 0 <= j < i ==> r[j] == d[j];
    assert forall j :: i <= j < |r| ==> r[j] == d[j + 1];
    forall j | 0 <= j < |d| && d[j].0 != d[i].0
      ensures d[j] in r && d[j].0 in Keys(r)
    {
      var m := if j < i then j else j - 1;
      assert r[m] == d[j] && Keys(r)[m] == d[j].0;
    }
    if UniqueKeys(d) {
      forall a, b | 0 <= a < b < |r|
        ensures r[a].0 != r[b].0
      {
        var a', b' := if a < i then a else a + 1, if b < i then b else b + 1;
        assert r[a] == d[a'] && r[b] == d[b'];
      }
      forall j | 0 <= j < |r|
        ensures Keys(r)[j] != d[i].0
      {
        var j' := if j < i then j else j + 1;
        assert r[j] == d[j'];
      }
    }
  }

  /** Looking a key up after writing another one sees the old value. */
  lemma GetAfterPut<K, V>(d: Dict<K, V>, k: K, v: V, k': K)
    requires UniqueKeys(d) && k' in Keys(d) && k' != k
    ensures k' in Keys(Put(d, k, v)) && Get(Put(d, k, v), k') == Get(d, k')
  {
    var i := IndexOf(d, k').value;
    IndexOfUnique(d, i);
    var r := Put(d, k, v);
    assert r[i] == d[i];
    assert UniqueKeys(r);
    IndexOfUnique(r, i);
  }

  /** Looking a key up after deleting another one sees the old value. */
  lemma GetAfterDelete<K, V>(d: Dict<K, V>, k: K, k': K)
    requires UniqueKeys(d) && k' in Keys(d) && k' != k
    ensures k' in Keys(Delete(d, k)) && Get(Delete(d, k), k') == Get(d, k')
  {
    var j := IndexOf(d, k').value;
    IndexOfUnique(d, j);
    var m := DeletedIndex(d, k, j);
    IndexOfUnique(Delete(d, k), m);
  }

  /** Where entry `j` of `d` sits once key `k` is deleted: one place earlier when it
      came after `k`, the same place otherwise. */
  ghost function DeletedIndex<K, V>(d: Dict<K, V>, k: K, j: nat): (m: nat)
    requires UniqueKeys(d) && j < |d| && d[j].0 != k
    ensures m < |Delete(d, k)| && Delete(d, k)[m] == d[j] && UniqueKeys(Delete(d, k))
    ensures m == j || m == j - 1
  {
    if k in Keys(d) && IndexOf(d, k).value < j then j - 1 else j
  }

  /** Writing a key's old value back undoes a write to it. */
  lemma PutBack<K, V>(d: Dict<K, V>, k: K, v: V)
    requires UniqueKeys(d) && k in Keys(d)
    ensures Put(Put(d, k, v), k, Get(d, k)) == d
  {
    var i := IndexOf(d, k).value;
    var r := d[i := (k, v)];
    IndexOfUnique(r, i);
    assert r[i := (k, d[i].1)] == d;
  }
}

=== FILE: position_key.dfy ===
/** The string `str(x) + "," + str(y)` under which the game files every object of
    `game.objects`, and a decoder proving that two cells never share a key. */
module PositionKey {
  import opened Basics

  /** A grid cell `(x, y)`. */
  type Position = (int, int)

  predicate IsDigit(c: char) {
    '0' <= c <= '9'
  }

  function DigitChar(d: nat): (c: char)
    requires d < 10
    ensures IsDigit(c)
  {
    (48 + d) as char
  }

  function DigitValue(c: char): nat {
    if IsDigit(c) then c as int - 48 else 0
  }

  /** Python's `str(n)` for a natural number: decimal, no leading zeros. */
  function NatToString(n: nat): (s: string)
    ensures |s| >= 1
    ensures forall i :: 0 <= i < |s| ==> IsDigit(s[i])
    decreases n
  {
    if n < 10 then [DigitChar(n)] else NatToString(n / 10) + [DigitChar(n % 10)]
  }

  /** Python's `str(x)` for an integer: a minus sign, then the digits of `|x|`. */
  function IntToString(x: int): (s: string)
    ensures ',' !in s
  {
    if x < 0 then "-" + NatToString(-x) else NatToString(x)
  }

  /** The dictionary key of cell `p`. */
  function Key(p: Position): string {
    IntToString(p.0) + "," + IntToString(p.1)
  }

  /** Reads a decimal numeral. */
  function ParseNat(s: string): nat {
    if |s| == 0 then 0 else ParseNat(s[..|s| - 1]) * 10 + DigitValue(s[|s| - 1])
  }

  /** Reads an optionally negated decimal numeral. */
  function ParseInt(s: string): int {
    if |s| > 0 && s[0] == '-' then 0 - ParseNat(s[1..]) as int else ParseNat(s)
  }

  /** The first position of `c` in `s`. */
  function FirstIndex(s: string, c: char): (r: Option<nat>)
    ensures r.Some? ==> r.value < |s| && s[r.value] == c
    ensures r.Some? ==> forall j :: 0 <= j < r.value ==> s[j] != c
    ensures r.None? ==> c !in s
  {
    if |s| == 0 then None
    else if s[0] == c then Some(0)
    else
      match FirstIndex(s[1..], c)
      case None => None
      case Some(i) => Some(i + 1)
  }

  /** Splits a key at its first comma and reads both coordinates. */
  function ParseKey(s: string): Option<Position> {
    match FirstIndex(s, ',')
    case None => None
    case Some(i) => Some((ParseInt(s[..i]), ParseInt(s[i + 1..])))
  }

  lemma {:induction false} NatRoundTrip(n: nat)
    ensures ParseNat(NatToString(n)) == n
    decreases n
  {
    var s := NatToString(n);
    if n < 10 {
      assert s[..|s| - 1] == [];
    } else {
      assert s[..|s| - 1] == NatToString(n / 10);
      NatRoundTrip(n / 10);
    }
  }

  lemma IntRoundTrip(x: int)
    ensures ParseInt(IntToString(x)) == x
  {
    if x < 0 {
      var t := NatToString(-x);
      var s := "-" + t;
      assert IntToString(x) == s && s[0] == '-' && s[1..] == t;
      NatRoundTrip(-x);
      assert ParseInt(s) == 0 - ParseNat(t) as int;
    } else {
      var s := NatToString(x);
      assert IsDigit(s[0]) && s[0] != '-';
      NatRoundTrip(x);
      assert ParseInt(s) == ParseNat(s);
    }
  }

  /** Decoding a key gives back the cell it was made from. */
  lemma KeyRoundTrip(p: Position)
    ensures ParseKey(Key(p)) == Some(p)
  {
    var a, b := IntToString(p.0), IntToString(p.1);
    var s := Key(p);
    assert s[|a|] == ',';
    assert forall j :: 0 <= j < |a| ==> s[j] == a[j];
    var i := FirstIndex(s, ',');
    assert i == Some(|a|);
    assert s[..|a|] == a;
    assert s[|a| + 1..] == b;
    IntRoundTrip(p.0);
    IntRoundTrip(p.1);
  }

  /** Two cells share an `objects` key exactly when they are the same cell. */
  lemma KeyInjective(p: Position, q: Position)
    ensures Key(p) == Key(q) <==> p == q
  {
    KeyRoundTrip(p);
    KeyRoundTrip(q);
  }
}

=== FILE: qungeon.dfy ===
/** The rules of the `Game` and `GameHotbar` classes in Qungeon.py: moving the player
    one cell, moving to the next level, releasing a gate dragged from the hotbar, and
    dropping a pillar that carries a control gate onto a second pillar.

    Which sprites the mouse pointer is over is an input: `hits` is the set of board
    keys of the objects whose rectangles contain the pointer. */
module Qungeon {
  import opened Basics
  import opened OrderedDict
  import opened PositionKey
  import opened Kinds
  import opened Grouping
  import opened Hotbar
  import opened GameObjects
  import opened HotbarActions

  /** The movement keys `K_w`, `K_s`, `K_a` and `K_d`. */
  datatype Direction = Up | Down | Left | Right {
    function Opposite(): Direction {
      match this
      case Up => Down
      case Down => Up
      case Left => Right
      case Right => Left
    }
  }

  /** The cell one step from `p` in direction `dir`; `y` grows downwards. */
  function Step(p: Position, dir: Direction): (r: Position)
    ensures dir == Up ==> r == (p.0, p.1 - 1)
    ensures dir == Down ==> r == (p.0, p.1 + 1)
    ensures dir == Left ==> r == (p.0 - 1, p.1)
    ensures dir == Right ==> r == (p.0 + 1, p.1)
  {
    match dir
    case Up => (p.0, p.1 - 1)
    case Down => (p.0, p.1 + 1)
    case Left => (p.0 - 1, p.1)
    case Right => (p.0 + 1, p.1)
  }

  /** A step reaches one of the four cells sharing an edge with the start, so it is
      always within `Player.distance` of it; the opposite key steps back. */
  lemma StepIsAdjacent(p: Position, dir: Direction)
    ensures var r := Step(p, dir);
      && r != p
      && Near(Player(p, (0, 0)), r.0, r.1)
      && (r.0 == p.0 || r.1 == p.1)
      && Step(r, dir.Opposite()) == p
  {
  }

  /** Whether the tile at `cell` exists and is an END tile. */
  predicate IsEnd(tiles: map<Position, TileType>, cell: Position) {
    cell in tiles && tiles[cell] == EndTile
  }

  /** Whether the tile at `cell` exists and is not a WALL. */
  predicate IsOpen(tiles: map<Position, TileType>, cell: Position) {
    cell in tiles && tiles[cell] != WallTile
  }

  /** `advance_level()` up to the point where the next level is loaded: the level
      counter goes up by one and nothing else changes. */
  function AdvanceLevel(g: Game): (r: Game)
    ensures r.level == g.level + 1
    ensures r == g.(level := r.level)
  {
    g.(level := g.level + 1)
  }

  /** `update_position(direction)`. An END tile at the destination ends the level
      after the hop has carried the player onto it, whatever object is filed there.
      Otherwise an object at the destination decides whether the player may enter,
      and with no object there the player enters any tile but a WALL. */
  function UpdatePosition(g: Game, dir: Direction): (r: Game)
    requires UniqueKeys(g.objects)
    ensures var dest := Step(g.player.position, dir);
      && (r.player.position == dest ==> r.player == PlacePlayer(dest.0, dest.1))
      && (r.player.position != dest ==> r == g)
      && r.level == (if IsEnd(g.tiles, dest) then g.level + 1 else g.level)
      && r.tiles == g.tiles
    ensures var dest := Step(g.player.position, dir);
      IsEnd(g.tiles, dest) ==> r == g.(player := PlacePlayer(dest.0, dest.1), level := g.level + 1)
    ensures var dest := Step(g.player.position, dir);
      !IsEnd(g.tiles, dest) && Key(dest) in Keys(g.objects) ==>
        (r.player.position == dest <==> Get(g.objects, Key(dest)).Lootable? || Passable(Get(g.objects, Key(dest)).q))
    ensures var dest := Step(g.player.position, dir);
      !IsEnd(g.tiles, dest) && Key(dest) !in Keys(g.objects) ==>
        (r.player.position == dest <==> IsOpen(g.tiles, dest))
    ensures var dest := Step(g.player.position, dir);
      !IsEnd(g.tiles, dest) && Key(dest) !in Keys(g.objects) && IsOpen(g.tiles, dest) ==>
        r == g.(player := PlacePlayer(dest.0, dest.1))
    ensures var dest := Step(g.player.position, dir);
      !IsEnd(g.tiles, dest) && Key(dest) in Keys(g.objects) && r.player.position == dest ==>
        r == Interact(g, Key(dest)).0.(player := PlacePlayer(dest.0, dest.1))
  {
    var dest := Step(g.player.position, dir);
    StepIsAdjacent(g.player.position, dir);
    var key := Key(dest);
    if IsEnd(g.tiles, dest) then
      AdvanceLevel(g.(player := PlacePlayer(dest.0, dest.1)))
    else if key in Keys(g.objects) then
      var (g1, enter) := Interact(g, key);
      if enter then g1.(player := PlacePlayer(dest.0, dest.1)) else g1
    else if IsOpen(g.tiles, dest) then
      g.(player := PlacePlayer(dest.0, dest.1))
    else
      g
  }

  /** Movement never unregisters a pillar. */
  lemma UpdatePositionKeepsRegistered(g: Game, dir: Direction)
    requires Registered(g)
    ensures Registered(UpdatePosition(g, dir))
  {
    var dest := Step(g.player.position, dir);
    if !IsEnd(g.tiles, dest) && Key(dest) in Keys(g.objects) {
      InteractKeepsRegistered(g, Key(dest));
    }
  }

  /** The player never ends a move on a WALL tile or off the tiles, unless an object
      is filed under that cell's key and let the player in. */
  lemma NeverIntoWall(g: Game, dir: Direction)
    requires UniqueKeys(g.objects)
    requires var dest := Step(g.player.position, dir);
      !IsOpen(g.tiles, dest) && Key(dest) !in Keys(g.objects)
    ensures UpdatePosition(g, dir) == g
  {
    var dest := Step(g.player.position, dir);
    StepIsAdjacent(g.player.position, dir);
  }

  /** On empty floor a step and the opposite step restore the game exactly. */
  lemma StepThereAndBack(g: Game, dir: Direction)
    requires UniqueKeys(g.objects)
    requires g.player == PlacePlayer(g.player.position.0, g.player.position.1)
    requires var here, dest := g.player.position, Step(g.player.position, dir);
      && IsOpen(g.tiles, dest) && !IsEnd(g.tiles, dest) && Key(dest) !in Keys(g.objects)
      && IsOpen(g.tiles, here) && !IsEnd(g.tiles, here) && Key(here) !in Keys(g.objects)
    ensures UpdatePosition(UpdatePosition(g, dir), dir.Opposite()) == g
  {
    var here, dest := g.player.position, Step(g.player.position, dir);
    StepIsAdjacent(here, dir);
    var g1 := UpdatePosition(g, dir);
    assert g1 == g.(player := PlacePlayer(dest.0, dest.1));
    assert Step(g1.player.position, dir.Opposite()) == here;
  }

  /** The index of the first slot being dragged, in key order. */
  function FirstDraggedSlot(slots: Dict<string, Slot>): (r: Option<nat>)
    ensures r.Some? ==> r.value < |slots| && slots[r.value].1.dragging
    ensures r.Some? ==> forall j :: 0 <= j < r.value ==> !slots[j].1.dragging
    ensures r.None? <==> forall j :: 0 <= j < |slots| ==> !slots[j].1.dragging
  {
    var dragged := (i: nat) => i < |slots| && slots[i].1.dragging;
    var r := First(|slots|, dragged);
    assert forall j :: 0 <= j < |slots| ==> (dragged(j) <==> slots[j].1.dragging);
    r
  }

  /** `GameHotbar.handle_mouse_up(game, event)`: the first slot being dragged is
      released, its gate is used where it was dropped, and if the slot survives it
      goes back to its place in the row. Other dragged slots are left alone. */
  function HandleMouseUp(g: Game, hits: set<string>, s: Samples): (r: Game)
    requires Registered(g) && UniqueKeys(g.hotbar.slots)
    ensures Registered(r) && UniqueKeys(r.hotbar.slots) && SameShape(g.objects, r.objects)
    ensures r.tiles == g.tiles && r.player == g.player && r.level == g.level
    ensures FirstDraggedSlot(g.hotbar.slots).None? ==> r == g
    ensures FirstDraggedSlot(g.hotbar.slots).Some? ==>
      var i := FirstDraggedSlot(g.hotbar.slots).value;
      var key := g.hotbar.slots[i].0;
      key in Keys(r.hotbar.slots) ==>
        Get(r.hotbar.slots, key).x == SlotX(i) && Get(r.hotbar.slots, key).y == HotbarY && !Get(r.hotbar.slots, key).dragging
    ensures FirstDraggedSlot(g.hotbar.slots).Some? ==>
      var i := FirstDraggedSlot(g.hotbar.slots).value;
      var (key, slots) := (g.hotbar.slots[i].0, g.hotbar.slots);
      var released := slots[i := (key, slots[i].1.(dragging := false))];
      && Keys(released) == Keys(slots) && UniqueKeys(released)
      && var g1 := RemoveItem(g.(hotbar := Hotbar(released)), hits, key, s);
      && r.objects == g1.objects && r.grouping == g1.grouping && r.history == g1.history
  {
    var slots := g.hotbar.slots;
    match FirstDraggedSlot(slots)
    case None => g
    case Some(i) =>
      var key := slots[i].0;
      var released := slots[i := (key, slots[i].1.(dragging := false))];
      assert Keys(released) == Keys(slots) && UniqueKeys(released);
      IndexOfUnique(released, i);
      var g1 := RemoveItem(g.(hotbar := Hotbar(released)), hits, key, s);
      RemoveItemKeepsDragState(g.(hotbar := Hotbar(released)), hits, key, s);
      if key in Keys(g1.hotbar.slots) then
        var slot := Get(g1.hotbar.slots, key);
        g1.(hotbar := Hotbar(Put(g1.hotbar.slots, key, slot.(x := SlotX(i), y := HotbarY))))
      else
        g1
  }

  /** Using a gate never picks up or drops its slot. */
  lemma RemoveItemKeepsDragState(g: Game, hits: set<string>, key: string, s: Samples)
    requires Registered(g) && UniqueKeys(g.hotbar.slots) && key in Keys(g.hotbar.slots)
    ensures var h := RemoveItem(g, hits, key, s).hotbar;
      key in Keys(h.slots) ==> Get(h.slots, key).dragging == Get(g.hotbar.slots, key).dragging
  {
  }

  /** At most one slot is being dragged, as the mouse can pick up only one. */
  predicate AtMostOneDragged(slots: Dict<string, Slot>) {
    forall j, k :: 0 <= j < |slots| && 0 <= k < |slots| && slots[j].1.dragging && slots[k].1.dragging ==> j == k
  }

  /** Releasing slot `i` of a settled row leaves every other resting slot in place,
      and leaves nothing dragged when slot `i` was the only one dragged. */
  lemma ReleaseKeepsSettled(slots: Dict<string, Slot>, i: nat)
    requires UniqueKeys(slots) && Settled(slots) && i < |slots| && slots[i].1.dragging
    ensures var released := slots[i := (slots[i].0, slots[i].1.(dragging := false))];
      && UniqueKeys(released) && Keys(released) == Keys(slots)
      && SettledExcept(released, slots[i].0)
      && (AtMostOneDragged(slots) ==> NoneDragged(released))
  {
    var released := slots[i := (slots[i].0, slots[i].1.(dragging := false))];
    assert Keys(released) == Keys(slots);
  }

  /** Putting the slot filed under `key`, at index `i`, back in its place settles a
      row in which every other resting slot is in place. */
  lemma PlaceBackSettles(slots: Dict<string, Slot>, key: string, i: nat)
    requires UniqueKeys(slots) && i < |slots| && slots[i].0 == key && SettledExcept(slots, key)
    ensures var placed := Put(slots, key, Get(slots, key).(x := SlotX(i), y := HotbarY));
      && Settled(placed)
      && (NoneDragged(slots) ==> NoneDragged(placed) && LaidOut(placed))
  {
    IndexOfUnique(slots, i);
  }

  /** Using a gate keeps the other resting slots in place, drags no slot, and leaves
      the gate's slot, if it survives, under the same keys in the same order. */
  lemma RemoveItemKeepsSettled(g: Game, hits: set<string>, key: string, s: Samples)
    requires Registered(g) && UniqueKeys(g.hotbar.slots) && key in Keys(g.hotbar.slots)
    requires SettledExcept(g.hotbar.slots, key)
    ensures var h := RemoveItem(g, hits, key, s).hotbar;
      && SettledExcept(h.slots, key)
      && (NoneDragged(g.hotbar.slots) ==> NoneDragged(h.slots))
      && (key in Keys(h.slots) ==> Keys(h.slots) == Keys(g.hotbar.slots))
  {
    var h := RemoveItem(g, hits, key, s).hotbar;
    if h != g.hotbar {
      RemoveByKeyKeepsSettled(g.hotbar, key);
    }
  }

  /** `handle_mouse_up` on the hotbar, step by step: release the first dragged slot,
      use its gate, and put the slot back if it survived. */
  lemma UnfoldMouseUp(g: Game, hits: set<string>, s: Samples)
    requires Registered(g) && UniqueKeys(g.hotbar.slots) && FirstDraggedSlot(g.hotbar.slots).Some?
    ensures var slots, i := g.hotbar.slots, FirstDraggedSlot(g.hotbar.slots).value;
      var key := slots[i].0;
      var released := slots[i := (key, slots[i].1.(dragging := false))];
      && UniqueKeys(released)
      && var h := RemoveItem(g.(hotbar := Hotbar(released)), hits, key, s).hotbar;
      && HandleMouseUp(g, hits, s).hotbar
         == if key in Keys(h.slots) then Hotbar(Put(h.slots, key, Get(h.slots, key).(x := SlotX(i), y := HotbarY))) else h
  {
    var slots, i := g.hotbar.slots, FirstDraggedSlot(g.hotbar.slots).value;
    var released := slots[i := (slots[i].0, slots[i].1.(dragging := false))];
    assert Keys(released) == Keys(slots);
  }

  /** The row after using the gate of the released slot `i`, with the slot put back
      if it survived: every resting slot is in place, and when slot `i` was the only
      one dragged, the whole row is laid out and nothing is dragged. */
  lemma PutBackSettles(slots: Dict<string, Slot>, i: nat, h: Dict<string, Slot>)
    requires UniqueKeys(slots) && Settled(slots) && i < |slots| && slots[i].1.dragging
    requires UniqueKeys(h) && SettledExcept(h, slots[i].0)
    requires AtMostOneDragged(slots) ==> NoneDragged(h)
    requires slots[i].0 in Keys(h) ==> Keys(h) == Keys(slots)
    ensures var key := slots[i].0;
      var r := if key in Keys(h) then Put(h, key, Get(h, key).(x := SlotX(i), y := HotbarY)) else h;
      && Settled(r)
      && (AtMostOneDragged(slots) ==> LaidOut(r) && NoneDragged(r))
  {
    var key := slots[i].0;
    if key in Keys(h) {
      assert Keys(h)[i] == key;
      PlaceBackSettles(h, key, i);
    } else {
      assert forall j :: 0 <= j < |h| ==> h[j].0 != key by {
        forall j | 0 <= j < |h| ensures h[j].0 != key {
          assert Keys(h)[j] == h[j].0;
        }
      }
    }
  }

  /** Releasing the dragged slot puts it back in place: if every resting slot was in
      place before, every resting slot is in place after, and when the released slot
      was the only one dragged, the whole row is laid out and nothing is dragged. */
  lemma MouseUpSettles(g: Game, hits: set<string>, s: Samples)
    requires Registered(g) && UniqueKeys(g.hotbar.slots) && Settled(g.hotbar.slots)
    ensures var r := HandleMouseUp(g, hits, s).hotbar.slots;
      && Settled(r)
      && (AtMostOneDragged(g.hotbar.slots) ==> LaidOut(r) && NoneDragged(r))
  {
    var slots := g.hotbar.slots;
    if FirstDraggedSlot(slots).Some? {
      var i := FirstDraggedSlot(slots).value;
      var key := slots[i].0;
      var released := slots[i := (key, slots[i].1.(dragging := false))];
      ReleaseKeepsSettled(slots, i);
      UnfoldMouseUp(g, hits, s);
      var g0 := g.(hotbar := Hotbar(released));
      RemoveItemKeepsSettled(g0, hits, key, s);
      PutBackSettles(slots, i, RemoveItem(g0, hits, key, s).hotbar.slots);
    }
  }

  /** What `handle_object_dragging` returns: `None` when no pillar is being dragged,
      `False` when the dragged pillar was not dropped onto another pillar, and the
      dragged pillar's `control` when it was. */
  datatype Drop = NotDragging | Missed | Dropped(control: Option<string>)

  /** The index of the first pillar being dragged, in board order. */
  function FirstDraggedPillar(objects: Dict<string, GameObject>): (r: Option<nat>)
    ensures r.Some? ==> r.value < |objects| && objects[r.value].1.Quantum? && objects[r.value].1.q.dragging
    ensures r.Some? ==> forall j :: 0 <= j < r.value ==> !(objects[j].1.Quantum? && objects[j].1.q.dragging)
    ensures r.None? <==> forall j :: 0 <= j < |objects| ==> !(objects[j].1.Quantum? && objects[j].1.q.dragging)
  {
    var dragged := (i: nat) => i < |objects| && objects[i].1.Quantum? && objects[i].1.q.dragging;
    var r := First(|objects|, dragged);
    assert forall j :: 0 <= j < |objects| ==> (dragged(j) <==> objects[j].1.Quantum? && objects[j].1.q.dragging);
    r
  }

  /** Whether the object at index `j` is a pillar under the pointer other than the
      dragged pillar at index `i`. */
  predicate DropTarget(objects: Dict<string, GameObject>, hits: set<string>, i: nat, j: nat)
    requires j < |objects|
  {
    j != i && objects[j].0 in hits && objects[j].1.Quantum?
  }

  /** The index of the pillar the dragged pillar `i` is dropped onto, in board order. */
  function FirstDropTarget(objects: Dict<string, GameObject>, hits: set<string>, i: nat): (r: Option<nat>)
    ensures r.Some? ==> r.value < |objects| && DropTarget(objects, hits, i, r.value)
    ensures r.Some? ==> forall j :: 0 <= j < r.value ==> !DropTarget(objects, hits, i, j)
    ensures r.None? <==> forall j :: 0 <= j < |objects| ==> !DropTarget(objects, hits, i, j)
  {
    var target := (j: nat) => j < |objects| && DropTarget(objects, hits, i, j);
    var r := First(|objects|, target);
    assert forall j :: 0 <= j < |objects| ==> (target(j) <==> DropTarget(objects, hits, i, j));
    r
  }

  /** Dropping the pillar at index `i` onto the pillar at index `j` of a board keyed by
      cells aims the controlled effect at a pillar, and the dropped pillar keeps its
      released drag state through the effect. */
  lemma DropFacts(g: Game, i: nat, j: nat, d: Descriptor, s: Samples)
    requires Registered(g) && i < |g.objects| && j < |g.objects|
    requires g.objects[i].1.Quantum? && g.objects[j].1.Quantum?
    requires d.Controlled? && d.reference == g.objects[j].1.q.position
    ensures g.objects[i].0 in Keys(g.objects) && Get(g.objects, g.objects[i].0) == g.objects[i].1
    ensures KeyedByCell(g.objects) ==> ReferenceIsPillar(g.objects, d.reference)
    ensures ApplyEffect(g, g.objects[i].0, d, s).Ok? ==>
      var r := ApplyEffect(g, g.objects[i].0, d, s).value;
      r.objects[i].1.Quantum? && r.objects[i].1.q.dragging == g.objects[i].1.q.dragging
  {
    IndexOfUnique(g.objects, i);
    if KeyedByCell(g.objects) {
      assert g.objects[j].0 == Key(g.objects[j].1.Cell());
      IndexOfUnique(g.objects, j);
    }
    var key := g.objects[i].0;
    if ApplyEffect(g, key, d, s).Ok? {
      var r := ApplyEffect(g, key, d, s).value;
      ApplyEffectUpdatesPillar(g, key, d, s);
      SameShapeKeys(g.objects, r.objects);
      IndexOfUnique(r.objects, i);
    }
  }

  /** The controlled effect applied when the pillar at `i`, carrying CNOT or CHAD, is
      dropped onto the pillar at `j`: a Flip or a Superposition of the target, with the
      dragged pillar as its control. */
  function DropControl(g: Game, i: nat, j: nat, s: Samples): (r: Result<Game>)
    requires Registered(g) && i < |g.objects| && j < |g.objects|
    requires g.objects[i].1.Quantum? && g.objects[j].1.Quantum?
    requires g.objects[i].1.q.control.Some? && IsControlGate(g.objects[i].1.q.control.value)
    ensures r.Ok? ==> Registered(r.value) && SameShape(g.objects, r.value.objects)
    ensures r.Ok? ==> r.value == g.(objects := r.value.objects, grouping := r.value.grouping, history := r.value.history)
    ensures r.Ok? ==> r.value.objects[i].1.Quantum? && r.value.objects[i].1.q.dragging == g.objects[i].1.q.dragging
    ensures r.Err? ==> !KeyedByCell(g.objects)
  {
    var q := g.objects[i].1.q;
    var d := Controlled(ControlEffect(q.control.value).value, g.objects[j].1.q.position);
    DropFacts(g, i, j, d, s);
    ApplyEffect(g, g.objects[i].0, d, s)
  }

  /** `handle_object_dragging(event)`: the first dragged pillar is released. If the
      pointer is over another pillar, a pillar carrying CNOT applies a Flip to it and
      one carrying CHAD a Superposition, each controlled by the dragged pillar, and
      the dragged pillar's control is returned. Objects after the first dragged
      pillar are not looked at. */
  function HandleObjectDragging(g: Game, hits: set<string>, s: Samples): (r: Result<(Game, Drop)>)
    requires Registered(g)
    ensures r.Ok? ==> Registered(r.value.0) && SameShape(g.objects, r.value.0.objects)
    ensures r.Ok? ==> r.value.0 == g.(objects := r.value.0.objects, grouping := r.value.0.grouping, history := r.value.0.history)
    ensures FirstDraggedPillar(g.objects).None? <==> r == Ok((g, NotDragging))
    ensures FirstDraggedPillar(g.objects).Some? && r.Ok? ==>
      var i := FirstDraggedPillar(g.objects).value;
      && !r.value.0.objects[i].1.q.dragging
      && (r.value.1.Missed? <==> FirstDropTarget(g.objects, hits, i).None?)
      && (r.value.1.Dropped? ==> r.value.1.control == g.objects[i].1.q.control)
    ensures FirstDraggedPillar(g.objects).Some? && !ControlDrop(g, hits) ==>
      var i := FirstDraggedPillar(g.objects).value;
      var released := g.objects[i := (g.objects[i].0, Quantum(g.objects[i].1.q.(dragging := false)))];
      r == Ok((g.(objects := released),
               if FirstDropTarget(g.objects, hits, i).None? then Missed else Dropped(g.objects[i].1.q.control)))
    ensures r.Err? ==> !KeyedByCell(g.objects)
  {
    var objects := g.objects;
    match FirstDraggedPillar(objects)
    case None => Ok((g, NotDragging))
    case Some(i) =>
      var key, q := objects[i].0, objects[i].1.q;
      var released := objects[i := (key, Quantum(q.(dragging := false)))];
      Release(g, i);
      SameShapeKeys(objects, released);
      var g1 := g.(objects := released);
      assert released[i].1.q.dragging == false;
      match FirstDropTarget(objects, hits, i)
      case None => Ok((g1, Missed))
      case Some(j) =>
        if q.control.Some? && IsControlGate(q.control.value) then
          var g2 :- DropControl(g1, i, j, s);
          SameShapeTrans(objects, released, g2.objects);
          Ok((g2, Dropped(q.control)))
        else
          Ok((g1, Dropped(q.control)))
  }

  /** Whether the first dragged pillar carries a control gate and is dropped onto
      another pillar. */
  predicate ControlDrop(g: Game, hits: set<string>) {
    && FirstDraggedPillar(g.objects).Some?
    && var i := FirstDraggedPillar(g.objects).value;
    && FirstDropTarget(g.objects, hits, i).Some?
    && g.objects[i].1.q.control.Some?
    && IsControlGate(g.objects[i].1.q.control.value)
  }

  /** Releasing the dragged pillar at index `i` keeps the board's shape and keeps it
      registered, and the released pillar is found by its key. */
  lemma Release(g: Game, i: nat)
    requires Registered(g) && i < |g.objects| && g.objects[i].1.Quantum?
    ensures var (key, q) := (g.objects[i].0, g.objects[i].1.q);
      var released := g.objects[i := (key, Quantum(q.(dragging := false)))];
      && SameShape(g.objects, released)
      && Registered(g.(objects := released))
      && key in Keys(released) && Get(released, key) == Quantum(q.(dragging := false))
  {
    var (key, q) := (g.objects[i].0, g.objects[i].1.q);
    var released := g.objects[i := (key, Quantum(q.(dragging := false)))];
    assert SameShape(g.objects, released);
    ShapeKeepsRegistered(g, released, g.grouping);
    IndexOfUnique(released, i);
  }

  /** Releasing the dragged pillar at index `i` of a board keyed by cells keeps the
      board registered, and both it and the pillar at index `j` are found by their
      keys. */
  lemma ReleaseAt(g: Game, i: nat, j: nat)
    requires Registered(g) && KeyedByCell(g.objects) && i < |g.objects| && j < |g.objects|
    requires g.objects[i].1.Quantum? && g.objects[j].1.Quantum? && i != j
    ensures var (key, q) := (g.objects[i].0, g.objects[i].1.q);
      var released := g.objects[i := (key, Quantum(q.(dragging := false)))];
      && Registered(g.(objects := released))
      && key in Keys(released) && Get(released, key) == Quantum(q.(dragging := false))
      && Key(g.objects[j].1.q.position) in Keys(released)
      && Get(released, Key(g.objects[j].1.q.position)) == g.objects[j].1
  {
    var (key, q) := (g.objects[i].0, g.objects[i].1.q);
    var released := g.objects[i := (key, Quantum(q.(dragging := false)))];
    Release(g, i);
    assert g.objects[j].0 == Key(g.objects[j].1.Cell());
    assert released[j] == g.objects[j];
    IndexOfUnique(released, j);
  }

  /** The board of a control drop once the dragged pillar is released: still
      registered, with the dragged pillar and the pillar under the pointer found by
      their keys. */
  lemma ReleasedForDrop(g: Game, hits: set<string>)
    requires Registered(g) && KeyedByCell(g.objects) && ControlDrop(g, hits)
    ensures var i := FirstDraggedPillar(g.objects).value;
      var j := FirstDropTarget(g.objects, hits, i).value;
      var (key, q) := (g.objects[i].0, g.objects[i].1.q);
      var released := g.objects[i := (key, Quantum(q.(dragging := false)))];
      && Registered(g.(objects := released))
      && key in Keys(released) && Get(released, key) == Quantum(q.(dragging := false))
      && Key(g.objects[j].1.q.position) in Keys(released)
      && Get(released, Key(g.objects[j].1.q.position)) == g.objects[j].1
  {
    var i := FirstDraggedPillar(g.objects).value;
    ReleaseAt(g, i, FirstDropTarget(g.objects, hits, i).value);
  }

  /** A control drop, step by step: release the dragged pillar, then apply the control
      gate's effect from it to the pillar under the pointer. */
  lemma UnfoldControlDrop(g: Game, hits: set<string>, s: Samples)
    requires Registered(g) && KeyedByCell(g.objects) && ControlDrop(g, hits)
    ensures var i := FirstDraggedPillar(g.objects).value;
      var j := FirstDropTarget(g.objects, hits, i).value;
      var (key, q) := (g.objects[i].0, g.objects[i].1.q);
      var g1 := g.(objects := g.objects[i := (key, Quantum(q.(dragging := false)))]);
      var d := Controlled(ControlEffect(q.control.value).value, g.objects[j].1.q.position);
      && Registered(g1) && key in Keys(g1.objects) && Get(g1.objects, key) == Quantum(q.(dragging := false))
      && Key(d.reference) in Keys(g1.objects) && Get(g1.objects, Key(d.reference)) == g.objects[j].1
      && ApplyEffect(g1, key, d, s).Ok?
      && HandleObjectDragging(g, hits, s) == Ok((ApplyEffect(g1, key, d, s).value, Dropped(q.control)))
  {
    ReleasedForDrop(g, hits);
  }

  /** Dropping a pillar carrying CNOT or CHAD onto another pillar of a board keyed by
      cells succeeds, logs the controlled effect under the dragged pillar's key, and
      leaves the two pillars in one group of a still valid grouping system. */
  lemma DropEntangles(g: Game, hits: set<string>, s: Samples)
    requires Registered(g) && KeyedByCell(g.objects) && Valid(g.grouping) && ControlDrop(g, hits)
    ensures var i := FirstDraggedPillar(g.objects).value;
      var j := FirstDropTarget(g.objects, hits, i).value;
      var (a, b) := (g.objects[i].1.q, g.objects[j].1.q);
      var r := HandleObjectDragging(g, hits, s);
      && r.Ok? && r.value.1 == Dropped(a.control)
      && r.value.0.history
         == g.history + [HistoryEntry(Controlled(ControlEffect(a.control.value).value, b.position), Key(a.position))]
      && Valid(r.value.0.grouping)
      && a.id in r.value.0.grouping.owner && b.id in r.value.0.grouping.owner
      && r.value.0.grouping.owner[a.id] == r.value.0.grouping.owner[b.id]
      && r.value.0.objects[j].1 == Quantum(Observed(b, NoEffect, s.reference))
  {
    var i := FirstDraggedPillar(g.objects).value;
    var j := FirstDropTarget(g.objects, hits, i).value;
    var (key, q) := (g.objects[i].0, g.objects[i].1.q);
    var g1 := g.(objects := g.objects[i := (key, Quantum(q.(dragging := false)))]);
    var d := Controlled(ControlEffect(q.control.value).value, g.objects[j].1.q.position);
    UnfoldControlDrop(g, hits, s);
    ApplyEffectGrouping(g1, key, d, s);
    DropUpdatesTarget(g, hits, s);
  }

  /** The pillar a control gate is dropped onto ends with its own fresh reading. */
  lemma DropUpdatesTarget(g: Game, hits: set<string>, s: Samples)
    requires Registered(g) && KeyedByCell(g.objects) && ControlDrop(g, hits)
    ensures var i := FirstDraggedPillar(g.objects).value;
      var j := FirstDropTarget(g.objects, hits, i).value;
      var r := HandleObjectDragging(g, hits, s);
      r.Ok? && r.value.0.objects[j].1 == Quantum(Observed(g.objects[j].1.q, NoEffect, s.reference))
  {
    var i := FirstDraggedPillar(g.objects).value;
    var j := FirstDropTarget(g.objects, hits, i).value;
    var (key, q) := (g.objects[i].0, g.objects[i].1.q);
    var g1 := g.(objects := g.objects[i := (key, Quantum(q.(dragging := false)))]);
    var d := Controlled(ControlEffect(q.control.value).value, g.objects[j].1.q.position);
    UnfoldControlDrop(g, hits, s);
    assert Key(d.reference) == g.objects[j].0;
    assert Key(d.reference) != key;
    var r := ApplyEffect(g1, key, d, s).value;
    ApplyEffectUpdatesPillar(g1, key, d, s);
    SameShapeKeys(g1.objects, r.objects);
    assert r.objects[j].0 == Key(d.reference);
    IndexOfUnique(r.objects, j);
  }
}
